=== FILE: README.md ===
# Torrent streaming gateway: decision logic in Dafny

This project models the decision logic of a small HTTP gateway that streams
video out of BitTorrent swarms. The gateway exists in two versions:

- `server.js`, an Express server for Node;
- `main.ts`, a Deno server.

The two disagree in many details, so each is modelled on its own and a
separate module proves where they agree and where they part. The model
follows the code, including where it departs from RFC 7233. It covers:

- byte-range negotiation;
- the choice of the file to stream;
- the tracker merge of `enhanceMagnet`;
- magnet validation, info-hash extraction and the blocklist;
- the five-minute torrent cache;
- the registry of active connections, with its `cleanUp` and sweep;
- the mapping from thrown errors to status codes and texts.

The network, the torrent engine, the clock and stream piping are not run.
They become parameters:

- a `Resolution`: the file list of a ready torrent, or the message it was rejected with;
- `now` and `readyAt` clock values;
- a `Pipeline` outcome;
- a connection id.

Modules:

- `Wrappers`: `Option` and `Result`.
- `JsString`: the JavaScript string operations used:
  - `startsWith` and `includes`;
  - `replace` of the first match;
  - `split` on one character;
  - ASCII `toUpperCase` and case-insensitive suffix tests.
- `JsNumber`: JavaScript numbers as `Num = Val(int) | NaN`:
  - `Number(s)` and `parseInt(s, 10)`;
  - comparisons, truthiness, `+`, `-`, `Math.min`;
  - `String(n)`.
- `Http`: range outcomes, reply bodies and replies, and the `Content-Range` texts.
- `Torrent`: torrent files, resolutions and video-file selection (both files).
- `Trackers`: the announce-list merge (`server.js`).
- `Magnet`: prefix check, info hash and blocklist (`main.ts`).
- `TorrentCache`: `getTorrent` with its cache (`main.ts`).
- `Connections`: `ACTIVE_CONNECTIONS`, `cleanUp` and the sweep (`server.js`).
- `ExpressRange`, `ExpressGateway`: range handling and the `/stream` handler of `server.js`.
- `DenoRange`, `DenoGateway`: range handling and the request handler of `main.ts`.
- `RangeVariants`: where the two range handlers agree and where they differ.
- `RangeExamples`: three concrete range requests (`bytes=0-99` on 1000 bytes, no header and `bytes=999999-1000000` on 1000000 bytes), proved of both models.

## Where the code departs from its intent or from RFC 7233

The model follows the code in each of these cases:

- **Blocked content.** The 451 reply of `main.ts` is commented "Unavailable For Legal Reasons" (main.ts:101), so blocked hashes are evidently meant to get it. They get 500 instead, because the blocklist message says "bloqueado" while the 451 test looks for "blockeado" (`DenoGateway.BlockedContentIs500`).
- **Timeouts.** Both files answer 500. `server.js` sends "El contenido no está disponible". `main.ts` echoes the timeout message.
- **Malformed `Range` headers.** Section 3.1 of RFC 7233 lets a server ignore a `Range` header it cannot parse and send the whole file. The code instead turns unparsable bounds into `NaN`:
  - `main.ts` serves a 206 reply with `NaN` in its headers;
  - `server.js` replaces a `NaN` end by a chunk-capped end.
- **Reversed ranges.** Section 2.1 of RFC 7233 makes a range whose last byte precedes its first invalid, and section 3.1 says an invalid range should get 416. Neither file rejects `start > end`; the 206 reply carries a `Content-Length` of zero or less.
- **An end past the file.** Section 2.1 of RFC 7233 says such an end stands for the last byte, and section 4.4 keeps 416 for a range that does not overlap the file. Both files answer 416 instead.
- **Torrents without files.** `main.ts` falls back to `torrent.files[0]`, so only a torrent with no files at all yields `undefined`. That `undefined` file is cached. Each request then fails with a `TypeError`, which becomes a 500 reply.
- **Client disconnects.** Node rejects the pipeline with "Premature close", with a capital P. The handler only swallows "premature close", so a disconnect reaches the catch block (`ExpressGateway.NodePrematureCloseNotSwallowed`).

## Model

| member | source | states |
|---|---|---|
| JsString.IncludesIffOccurs | server.js:125 | `includes` holds exactly when the pattern occurs at some position |
| JsString.NotIncludedWhenCharMissing | main.ts:99 | a string lacking one of the pattern's characters does not include the pattern |
| JsString.IncludesAfter | server.js:125 | an occurrence is still an occurrence behind any prefix |
| JsString.IncludesPrefix | server.js:134 | a string includes any of its own prefixes |
| JsString.Includes | server.js:125 | `s.includes(p)`: `p` starts at some position of `s` |
| JsString.StartsWith | main.ts:52 | `s.startsWith(p)` |
| JsString.ReplaceFirst | server.js:88 | `replace` of the first occurrence of a literal pattern; `ReplaceFirstAbsent`, `ReplaceFirstPrefix` and `ReplaceFirstAfter` state its result (also main.ts:72) |
| JsString.ReplaceFirstAbsent | server.js:88 | `replace(/bytes=/, '')` leaves a header without `bytes=` unchanged |
| JsString.ReplaceFirstPrefix | main.ts:72 | `replace` drops a leading `bytes=` and keeps the rest |
| JsString.ReplaceFirstAfter | server.js:88 | the first occurrence of the pattern is replaced wherever it starts: the occurrence-free text before it and all text after it are kept |
| JsString.Split | server.js:89 | `split('-')` gives at least one piece, no piece contains the separator, and joining the pieces back gives the input |
| JsString.SplitJoin | server.js:89 | splitting pieces that were joined gives the pieces back |
| JsString.SplitNoSeparator | main.ts:72 | a string without the separator splits into itself alone |
| JsString.SplitAfterPiece | main.ts:72 | a separator-free piece and a separator at the front split off as the first piece |
| JsString.SplitPrepend | main.ts:72 | separator-free text at the front joins the first piece |
| JsString.SplitCons | main.ts:72 | a first character other than the separator joins the first piece |
| JsString.SplitHeadIsPrefix | main.ts:72 | the first piece of a split is a prefix of the string |
| JsString.ToUpper | main.ts:20 | `toUpperCase` keeps the length and upper-cases each ASCII letter |
| JsString.EndsWithIgnoreCaseUpper | server.js:70 | the case-insensitive suffix test does not change when the name is upper-cased |
| JsString.EndsWithIgnoreCase | server.js:70 | the `$`-anchored `/i` suffix test: the last characters equal the pattern up to ASCII case (also main.ts:29) |
| JsNumber.Decimal | server.js:100 | `String(n)` of a natural number is a non-empty digit string whose value is `n` |
| JsNumber.Number | server.js:89 | `Number` of a string with no minus sign is `NaN` or non-negative |
| JsNumber.ParseInt | main.ts:73 | `parseInt` of a string with no minus sign is `NaN` or non-negative |
| JsNumber.NumberOfDecimal | server.js:89 | `Number(String(n)) == n` |
| JsNumber.ParseIntOfDecimal | main.ts:74 | `parseInt(String(n) + rest) == n` when `rest` does not continue the digits |
| JsNumber.ParseIntDecimal | main.ts:73 | `parseInt(String(n), 10) == n` |
| JsNumber.NumberRejectsComma | server.js:89 | digits followed by a comma are `NaN` for `Number` |
| JsNumber.WordIsNaN | main.ts:73-74 | a string starting with a lower-case letter is `NaN` for both `Number` and `parseInt` |
| JsNumber.TrimEndKeeps | server.js:89 | trimming the end never removes a character that is not white space |
| JsNumber.PaddedDecimal | server.js:89 | white space around the digits is skipped: `Number(" " + String(n) + " ") == n` and `parseInt(" " + String(n), 10) == n` (also main.ts:73) |
| JsNumber.ShowNat | main.ts:84 | a non-negative number renders as its decimal digits |
| JsNumber.Show | server.js:100 | `String(x)`: "NaN", or the decimal digits with a leading `-` when negative |
| JsNumber.AtLeast | server.js:92 | `a >= b`, false for `NaN` |
| JsNumber.Truthy | server.js:97 | a number is truthy unless it is 0 or `NaN` |
| JsNumber.MathMin | server.js:97 | `Math.min`, `NaN` when either argument is `NaN` |
| JsNumber.Plus | server.js:97 | `+` on numbers, `NaN` when either side is `NaN` |
| JsNumber.Minus | server.js:101 | `-` on numbers, `NaN` when either side is `NaN` |
| JsNumber.DecimalAppend | main.ts:84 | the rendering of `10 * n + d` is that of `n` followed by the digit `d` |
| Http.PartialReply | server.js:99-102 | a window is answered with 206 and the window as body; numeric bounds give `Content-Range: bytes start-end/size`; `Content-Length` is `end - start + 1` for every pair of numeric bounds, with a leading `-` for a reversed window, and "NaN" when a bound is `NaN` |
| Http.RangeHeaderPieces | main.ts:72 | a well-formed `bytes=first-last` header splits into its two decimal parts behind the prefix |
| Http.StartOnlyHeaderPieces | server.js:89 | `bytes=first` without a dash splits into one piece |
| Http.DecimalHasNoDash | main.ts:72 | a decimal rendering contains no dash, so it is never split |
| Http.DecimalLacks | server.js:100 | a decimal rendering contains no character that is not a digit |
| Http.ContentRangeReadsBack | server.js:100 | dropping `bytes `, splitting `Content-Range` at `/` and then at `-` gives back the window's bounds and the file size |
| Http.ContentRangeText | main.ts:84 | the `Content-Range` of a numeric window is `bytes ` followed by `first-last/size` |
| Http.SizePiece | main.ts:84 | `window/size` splits at `/` into the window and the size |
| Http.WindowPieces | main.ts:84 | `first-last` splits at `-` into the two bounds and holds no `/` |
| Http.ContentRange | server.js:100 | `bytes start-end/size` as the template literal renders it |
| Http.SpanLength | server.js:101 | `end - start + 1` in JavaScript numbers, `NaN` when a bound is `NaN` (also main.ts:85) |
| Http.TextReply | main.ts:106-109 | a reply with a status, a text body and neither `Content-Range` nor `Content-Length` (also server.js:133-137) |
| Http.UnsatisfiedRange | server.js:93 | `bytes */size`, the 416 header |
| Torrent.FirstVideo | server.js:69-70 | `find` stops at a video name and every earlier name is not one; with no index found, no name is a video |
| Torrent.IsVideoName | server.js:70 | `/\.(mp4|mkv|webm|avi)$/i`: the name ends in one of the four extensions, in any case |
| Torrent.PickVideo | server.js:69-71 | no file exactly when the list is empty; the first video file when there is one; otherwise `files[0]` |
| Torrent.VideoNameIgnoresCase | main.ts:29 | the extension test ignores case |
| Trackers.SetInsertAll | server.js:30 | inserting into a `Set` keeps it duplicate-free, keeps earlier elements first, and holds exactly the union |
| Trackers.EnhanceTrackers | server.js:30 | the merged list has no duplicates, starts with `TRACKERS` in order, and holds exactly the fixed and the magnet's trackers |
| Trackers.Dedup | server.js:30 | `[...new Set(list)]`: the list without repeats, in order of first appearance |
| Trackers.EnhanceTrackersExact | server.js:30 | the merged list is `TRACKERS` followed by the magnet's other trackers, each once, in order of first appearance |
| Trackers.EnhanceWithoutTrackers | server.js:30 | a magnet without trackers gets exactly `TRACKERS` |
| Trackers.EnhanceTrackersIdempotent | server.js:30 | merging an already merged list changes nothing |
| Trackers.TrackersDistinct | server.js:15-25 | the fixed list has no duplicates |
| Trackers.Outside | server.js:30 | the kept elements are exactly those of the list not in the excluded list |
| Trackers.SetInsertAllConcat | server.js:30 | inserting a concatenation equals inserting one part after the other |
| Trackers.MergeTwice | server.js:30 | re-merging an already merged list after a distinct base adds nothing |
| Connections.Register | server.js:107 | registering puts a live entry for the id and changes no other entry |
| Connections.Destroy | server.js:107 | destroying a side of a registered connection shows in its entry, which holds the objects; no key is added or removed and no other entry changes |
| Connections.CleanUp | server.js:110-115 | the entry is deleted exactly when it is registered with a live stream (the closure's stream is the entry's); otherwise nothing changes, and no other entry changes |
| Connections.ClosedClientCleanedUp | server.js:117 | a client that goes away while its stream is alive has its entry deleted by `cleanUp` on `close` |
| Connections.CleanUpIdempotent | server.js:117-118 | `cleanUp` runs on both `close` and `finish`; the second run changes nothing |
| Connections.Dead | server.js:147 | the sweep's test: the response or the read stream is destroyed |
| Connections.Sweep | server.js:145-152 | no entry left after the sweep has a destroyed side |
| Connections.SweepEach | server.js:146-151 | one tick keeps exactly the live entries unchanged, destroys exactly the dead ones, and equals `Sweep` |
| Connections.SweepIdempotent | server.js:145-152 | a second sweep removes nothing more |
| Connections.SweepKeepsLive | server.js:145-152 | a registry of live entries is left as it is |
| Connections.EndedStreamLeftForSweep | server.js:111 | once the stream has ended and destroyed itself, `cleanUp` keeps the entry and the next sweep removes it |
| Connections.CleanUpCommutesWithSweep | server.js:110-115 | `cleanUp` and the sweep can run in either order |
| ExpressRange.Parts | server.js:88-89 | the parsed parts are `NaN` or non-negative |
| ExpressRange.Numeric | server.js:89-92 | an end missing from the split is `undefined`, which compares and tests as `NaN` |
| ExpressRange.ChunkEnd | server.js:97 | `Math.min(start + CHUNK_SIZE, fileSize - 1)`: `start + CHUNK_SIZE` when that lies below the file size, `fileSize - 1` when it reaches or passes the last byte, and `NaN` for a `NaN` start; a numeric result lies below the file size |
| ExpressRange.Decide | server.js:92-97 | 416 exactly when a parsed bound is at least the size (never for `NaN`); otherwise a window with the parsed start whose end is the parsed end when it is truthy and `ChunkEnd(start, size)` when it is 0, `NaN` or missing; window bounds lie below the size, and a numeric start gets a numeric end |
| ExpressRange.Negotiate | server.js:84-103 | no range exactly when the header is absent or empty; a window's numeric start lies in the file and its end below the size |
| ExpressRange.Respond | server.js:76-103 | 200 exactly for no range, with the whole file (bytes 0 to size-1) and `Content-Length` the size; 416 exactly for a refusal, with `bytes */size` and no body; a window is answered by `PartialReply` (206, `Content-Range` and the window's length) |
| ExpressRange.NegotiateHeader | server.js:87-89 | a non-empty header is split into its parts before the decision |
| ExpressRange.PartsOfHeader | server.js:89 | `bytes=first-last` parses to both numbers, and an empty end is `Number("") == 0` |
| ExpressRange.PartsOfStartOnly | server.js:89 | `bytes=first` parses to `first` and an `undefined` end |
| ExpressRange.ExplicitRange | server.js:89-97 | `bytes=first-last` is refused when a bound reaches the size; an end of 0 becomes the chunk end; any other end is kept |
| ExpressRange.OpenEndedRange | server.js:89-97 | `bytes=first-` is refused when the start reaches the size, and otherwise ends at the chunk end |
| ExpressRange.StartOnlyRange | server.js:89-97 | `bytes=first` behaves like `bytes=first-` |
| ExpressRange.ReversedRangeAccepted | server.js:99-102 | `bytes=50-10` on 100 bytes is served with 206 and `Content-Length: -39` |
| ExpressRange.MinusThirtyNine | server.js:101 | the window from 50 to 10 has `Content-Length: -39` |
| ExpressRange.NaNNeverRefused | server.js:92 | a `NaN` start with a `NaN` or missing end passes the 416 test and yields a `NaN` window |
| ExpressRange.NoHeaderWholeFile | server.js:84-86 | without a `Range` header the reply is 200 over `[0, size-1]` with `Content-Length` the size |
| ExpressGateway.ErrorText | server.js:133-137 | only two texts are ever sent; "not available" exactly when the message contains "Timeout" |
| ExpressGateway.Swallowed | server.js:125 | the pipeline error is dropped when its message includes "premature close" |
| ExpressGateway.Admitted | server.js:41 | the magnet check passes exactly when the parameter is present and not the empty string |
| ExpressGateway.Catch | server.js:130-141 | a 500 with `ErrorText` unless headers were sent, in which case the reply under way is kept; the registry loses exactly this request's entry |
| ExpressGateway.Stream | server.js:105-128 | after registration, a completed or swallowed pipeline keeps the reply and a live entry; any other rejection deletes exactly this entry and keeps the reply when it is a 206 or a body chunk went out, else answers 500 with `ErrorText` of the message; other entries keep their values |
| ExpressGateway.Handle | server.js:34-142 | statuses are 200, 206, 416 or 500, and a 500 carries one of the two texts; a falsy magnet, a parse failure, a failed resolution (any message) or no files give the catch block's 500 with this entry deleted; otherwise a 416 leaves the registry as it was and every other negotiation is streamed with `ExpressRange.Respond`'s reply, which a surviving live entry keeps; other entries keep their values |
| ExpressGateway.MissingMagnetIs500 | server.js:40-41 | a missing or empty magnet gives 500 "Error en el servidor" |
| ExpressGateway.TimeoutIsUnavailable | server.js:64 | the metadata timeout gives 500 "El contenido no está disponible" and deletes the connection |
| ExpressGateway.ServerErrorWithoutT | server.js:134 | a message without a capital `T` gets the generic text |
| ExpressGateway.MagnetRequiredText | server.js:41 | "Magnet link requerido" gets the generic text |
| ExpressGateway.NoVideoFileText | server.js:73 | "Archivo de video no encontrado" gets the generic text |
| ExpressGateway.NoFilesIs500 | server.js:73 | a torrent without files gives 500 "Error en el servidor" |
| ExpressGateway.UnsatisfiableNotRegistered | server.js:92-95 | a 416 reply returns before anything is registered |
| ExpressGateway.CompletedStaysRegistered | server.js:106-107 | a completed stream leaves a live entry, for `cleanUp` or the sweep to remove |
| ExpressGateway.WholeVideoStreamed | server.js:69-107 | without a `Range` header a torrent with files is answered 200 over the whole picked video with its size as `Content-Length`, and only this request's entry is added |
| ExpressGateway.CompletedThenRemoved | server.js:106-118 | after a completed stream, `cleanUp` on `finish` deletes the entry while the stream is alive, and the sweep removes it once the stream has ended |
| ExpressGateway.NodePrematureCloseNotSwallowed | server.js:125 | Node's "Premature close" is not swallowed by the lowercase test |
| ExpressGateway.UnswallowedReachesCatch | server.js:124-128 | any pipeline error without "premature close" ends in the catch block after registration |
| ExpressGateway.NodePrematureCloseText | server.js:134-136 | Node's premature-close message gets the generic text |
| ExpressGateway.ClientAbortReachesCatch | server.js:124-140 | a client disconnect deletes the connection; the reply is kept when its headers are out, and otherwise replaced by the generic 500 |
| ExpressGateway.LowercasePrematureCloseSwallowed | server.js:124-128 | an error containing "premature close" ends the request exactly like a completed pipeline |
| Magnet.UpToAmpersand | main.ts:20 | the capture is a prefix without `&` that stops at the first `&` or at the end |
| Magnet.MatchesAt | main.ts:20 | `/xt=urn:btih:([^&]+)/i` matches at a position: the parameter name up to ASCII case, then a character other than `&` |
| Magnet.FirstMatch | main.ts:20 | the leftmost match at or after a position, or no match at all |
| Magnet.InfoHash | main.ts:20 | no hash exactly when `xt=urn:btih:` never matches; otherwise the hash is the upper-cased `[^&]+` capture at the leftmost match, non-empty and free of `&` |
| Magnet.IsValidMagnet | main.ts:52 | `magnet?.startsWith("magnet:?")`, false for a missing parameter |
| Magnet.IsBlocked | main.ts:21 | `infoHash && BLOCKED_HASHES.has(infoHash)` |
| Magnet.NoHashNeverBlocked | main.ts:21 | a magnet without a match is never blocked |
| Magnet.NoMatchInPrefix | main.ts:20 | no match starts inside `magnet:?` |
| Magnet.FirstMatchAfterPrefix | main.ts:20 | a match right after the prefix is the first one |
| Magnet.StandardMagnetHash | main.ts:20 | `magnet:?xt=urn:btih:HASH` followed by nothing or `&...` has the upper-cased `HASH` as its hash |
| Magnet.CaptureWholeHash | main.ts:20 | the capture takes the whole hash up to the `&` |
| Magnet.BlockedIgnoringCase | main.ts:20-21 | a hash whose upper-cased form is on the blocklist is blocked in any case |
| Magnet.UpperNameMatches | main.ts:20 | `XT=URN:BTIH:` equals the parameter name up to case |
| Magnet.AnyCaseMatchAfterPrefix | main.ts:20 | after `magnet:?`, the parameter name in any case followed by a hash is a match whose capture starts right after the name |
| Magnet.AnyCaseMagnetHash | main.ts:20 | a standard magnet whose parameter name is in any case has the upper-cased hash as its info hash |
| Magnet.ParameterNameIgnoresCase | main.ts:20 | `magnet:?XT=URN:BTIH:HASH` and `magnet:?xt=urn:btih:HASH` have the same info hash |
| TorrentCache.GetTorrent | main.ts:9-44 | a fresh entry is returned as is. Otherwise the stale entry goes; a blocked magnet throws the blocklist message; a failure throws its message; a ready torrent yields the picked file, stored with `readyAt`. The entry exists exactly on success, and other keys are untouched |
| TorrentCache.Fresh | main.ts:13 | an entry is fresh while less than `CACHE_TTL` has passed since it was stored |
| TorrentCache.CachedMagnetSkipsBlocklist | main.ts:11-23 | a fresh entry is returned even for a blocked magnet |
| TorrentCache.FailuresNotCached | main.ts:21-42 | blocked and failed lookups leave no entry |
| TorrentCache.ResolvedThenHit | main.ts:11-15 | within the TTL, a second lookup returns the same result and cache, whatever the engine would say |
| TorrentCache.ExpiredEntryResolvedAgain | main.ts:13-16 | once the TTL has elapsed, the entry is dropped and resolution runs again |
| DenoRange.Parts | main.ts:72 | both parts are free of dashes |
| DenoRange.EndOf | main.ts:74 | an empty or absent end is `length - 1`; an end written without a minus sign is `NaN` or at least -1 |
| DenoRange.Decide | main.ts:74-82 | 416 exactly when the start or the end reaches the length (never for `NaN`); otherwise the window keeps both values unchanged; there is always a range |
| DenoRange.NegotiateHeader | main.ts:71-74 | a non-empty header is parsed into start and end before the decision |
| DenoRange.Negotiate | main.ts:71-82 | no range exactly when the header is absent or empty; a window's numeric start lies in the file, its end below the length, and numeric ends are non-negative |
| DenoRange.Respond | main.ts:76-95 | statuses are 200, 206 or 416; 200 exactly for no range, with the whole file and its length; 416 exactly for a refusal, with `bytes */length`, no body and no `Content-Length`; a window is answered by `PartialReply` (206, `Content-Range` and the window's length) |
| DenoRange.PartsOfHeader | main.ts:72 | `bytes=first-last` splits into the two decimal strings, and `bytes=first-` has an empty end |
| DenoRange.ExplicitRange | main.ts:72-84 | `bytes=first-last` is refused when a bound reaches the length, and otherwise served exactly, an end of 0 included |
| DenoRange.OpenEndedRange | main.ts:74-84 | `bytes=first-` ends at the last byte with no cap |
| DenoRange.StartOnlyRange | main.ts:74-84 | `bytes=first` also ends at the last byte |
| DenoRange.PartsAfterPrefix | main.ts:72 | behind `bytes=`, the start part ends at the first dash and the end part at the next |
| DenoRange.PartsWithTail | main.ts:72 | text after a well-formed header joins the end part up to its first dash |
| DenoRange.TrailingTextIgnored | main.ts:73-74 | text after the end's digits that does not start with a digit is ignored |
| DenoGateway.ErrorStatus | main.ts:99-109 | 451 exactly when the message contains "blockeado", 500 otherwise |
| DenoGateway.ErrorReply | main.ts:97-109 | the catch block answers with `ErrorStatus` and the error's own message as body |
| DenoGateway.Serve | main.ts:46-110 | 400 exactly for an invalid magnet, with the cache untouched; statuses are 200, 206, 400, 416, 451 or 500; a 451 body contains "blockeado"; for a valid magnet the cache is the lookup's, a thrown message gets `ErrorReply`, an undefined file gets the `TypeError` reply, and a file gets range negotiation over its length |
| DenoGateway.NotLegalWithoutK | main.ts:99 | a message without a `k` gets 500 |
| DenoGateway.InvalidMagnetRejected | main.ts:52-57 | a missing or unprefixed magnet gets 400 "Magnet link inválido" whatever the cache, clock, torrent or range |
| DenoGateway.LookupErrorReply | main.ts:59-110 | a valid magnet whose lookup throws is answered through the catch block with the thrown message |
| DenoGateway.BlockedMessageNotLegal | main.ts:22 | the blocklist message maps to 500 |
| DenoGateway.BlockedContentIs500 | main.ts:19-23 | a blocked, uncached magnet gets 500 with the blocklist message and is not cached |
| DenoGateway.UndefinedFileNotLegal | main.ts:74-94 | the `TypeError` from `undefined.length` maps to 500 |
| DenoGateway.MissingFileReply | main.ts:60-74 | a valid magnet whose torrent resolved to no file is answered through the catch block with the `TypeError` message |
| DenoGateway.ResolvedFileServed | main.ts:60-95 | a torrent resolving with files caches the picked video and the reply is range negotiation over its length (200, 206 or 416) |
| DenoGateway.TimeoutNotLegal | main.ts:37 | the timeout message maps to 500 |
| DenoGateway.LegalStatusOnlyFromEngine | main.ts:99-104 | 451 happens only for an engine failure whose message contains "blockeado" |
| DenoGateway.NoFilesIs500 | main.ts:28-42 | a torrent without files is cached with an `undefined` file and gets 500 with the `TypeError` message |
| DenoGateway.TimeoutIs500 | main.ts:36-38 | a timeout gets 500 with the timeout message |
| RangeVariants.SamePieces | server.js:88-89 | server.js reads the same two pieces as main.ts, through `Number` |
| RangeVariants.AgreeWithoutHeader | main.ts:71 | both answer a request without a `Range` header with the whole file |
| RangeVariants.AgreeOnExplicitRange | server.js:89-97 | both take `bytes=first-last` literally when the end is not 0 |
| RangeVariants.ZeroEndDiffers | server.js:97 | an end of 0 is a chunk for server.js and byte 0 for main.ts |
| RangeVariants.OpenEndDiffers | server.js:97 | `bytes=first-` stops after a chunk in server.js and runs to the last byte in main.ts |
| RangeVariants.MultiRangePieces | main.ts:72 | in `bytes=first-last,rest`, the end piece carries the comma |
| RangeVariants.MultiRangeExpressParts | server.js:88-89 | server.js reads `bytes=first-last,rest` as `first` and a `NaN` end |
| RangeVariants.MultiRangeExpress | server.js:92-97 | server.js answers a multi-range request with a chunk from its start, or 416 when the start reaches the size |
| RangeVariants.MultiRangeDiffers | main.ts:73-74 | for a multi-range request, main.ts serves the first range and server.js serves a chunk from its start |
| RangeVariants.WordEndPieces | main.ts:72 | `bytes=first-word` splits into the start and the word |
| RangeVariants.WordEndExpressParts | server.js:88-89 | server.js reads `bytes=first-word` as `first` and a `NaN` end |
| RangeVariants.WordEndDiffers | main.ts:74 | a word as end is a chunk in server.js and a `NaN` end in main.ts |
| RangeExamples.FirstHundredHeader | main.ts:72 | the header text of the `bytes=0-99` example |
| RangeExamples.PastEndHeader | main.ts:72 | the header text of the `bytes=999999-1000000` example |
| RangeExamples.LastByteText | main.ts:84 | `String(999999)` |
| RangeExamples.WindowText | main.ts:84 | the `Content-Range` text of the `bytes=0-99` example |
| RangeExamples.HundredText | main.ts:85 | the `Content-Length` text of the `bytes=0-99` example |
| RangeExamples.MillionText | main.ts:94 | `String(1000000)` |
| RangeExamples.UnsatisfiedMillion | main.ts:77 | the `Content-Range` of a 416 reply on 1000000 bytes |
| RangeExamples.FirstHundredReplies | main.ts:84-90 | both handlers answer `bytes=0-99` on 1000 bytes with the same partial reply |
| RangeExamples.FirstHundredBytes | server.js:99-102 | `bytes=0-99` on 1000 bytes gives 206, `bytes 0-99/1000` and `Content-Length: 100` from either server |
| RangeExamples.WholeMillion | main.ts:94-95 | no header on 1000000 bytes gives 200 with `Content-Length: 1000000` |
| RangeExamples.PastEndRefused | main.ts:76 | both refuse `bytes=999999-1000000` on 1000000 bytes |
| RangeExamples.EndPastFile | server.js:92-95 | that request gives 416, `bytes */1000000` and no body; server.js keeps `Content-Length: 1000000`, main.ts sends none |

## Left out

- JsNumber.Number: only decimal integer literals are modelled. Fractions, exponents, hexadecimal (`0x`), binary (`0b`) and octal (`0o`) literals and `Infinity` become `NaN` here, where JavaScript gives a number.
- JsString.ToUpper: upper-cases ASCII letters only. `toUpperCase` also maps other Unicode letters. This matters only for hashes with non-ASCII letters.
- JavaScript numbers are doubles; the model uses unbounded integers. Sizes beyond 2^53 bytes are not modelled.
- The Express and Deno serving wiring (`app.listen`, `serve`) is not modelled, and neither is the `PORT` variable.
- Constant headers are not part of the modelled `Reply`: `Accept-Ranges`, `Content-Type`, `Access-Control-*` and `Cache-Control`. Neither is the `Content-Length` the frameworks compute for text bodies.
- WebTorrent is not modelled: `client.add`, `client.get`, torrent events, `createReadStream` and the torrent handle kept in the cache. A `Resolution` value stands in for the outcome.
- `parseTorrent` and `toMagnetURI` are a library. `Trackers.EnhanceTrackers` models only the list merge. `ExpressGateway.Handle` takes the message thrown by parsing as the `parseFailure` parameter.
- The ready/error/timeout promise races, listener removal, `setTimeout` and `setInterval` are not modelled. The outcome of a race is the `resolution` parameter, and one sweep tick is `Connections.SweepEach`.
- `pipeline` streaming and backpressure are not modelled. Only its outcome is, as the `Pipeline` parameter: completed, or rejected with a message and whether a chunk was already written.
- ExpressGateway.Handle: the `close` and `finish` listeners run `cleanUp` as separate transitions (`Connections.CleanUp`) and are not interleaved with the handler. The catch block's `destroy()` of the read stream (server.js:139) is implied by the deletion of the entry, as in `Connections.CleanUp`.
- Connection ids from `Date.now()` and `Math.random()` are the `id` parameter. The clock is the `now` and `readyAt` parameters. Logging is not modelled.
- Express query parsing is not modelled: a repeated `magnet` parameter becomes an array in Express. URL decoding of the query is not modelled either.

=== FILE: connections.dfy ===
/** server.js `ACTIVE_CONNECTIONS`: a map from connection id to the pair
    (response, read stream), of which only the two `destroyed` flags matter
    here; the per-request `cleanUp` and the periodic sweep. */
module Connections {

  /** A connection id, `${Date.now()}-${random}` in the source. */
  type ConnId = string

  /** The `destroyed` flags of a registered response and its read stream. */
  datatype Conn = Conn(resDestroyed: bool, streamDestroyed: bool)

  type Registry = map<ConnId, Conn>

  /** The sweep's test `conn.res.destroyed || conn.readStream.destroyed`. */
  predicate Dead(c: Conn)
  {
    c.resDestroyed || c.streamDestroyed
  }

  /** `ACTIVE_CONNECTIONS.set(connectionId, { readStream, res })` right after
      the stream is created: neither side is destroyed yet. */
  function Register(reg: Registry, id: ConnId): (r: Registry)
    ensures id in r && !Dead(r[id])
    ensures forall k :: k != id ==> (k in r <==> k in reg)
    ensures forall k :: k != id && k in reg ==> r[k] == reg[k]
  {
    reg[id := Conn(false, false)]
  }

  /** A side of a registered connection is destroyed outside the handler:
      the client goes away (`res`) or the read stream ends or fails
      (`stream`). The registry holds the objects themselves, so the entry
      sees the new flags. */
  function Destroy(reg: Registry, id: ConnId, res: bool, stream: bool): (r: Registry)
    ensures forall k :: k in r <==> k in reg
    ensures id in reg ==> r[id] == Conn(reg[id].resDestroyed || res, reg[id].streamDestroyed || stream)
    ensures forall k :: k in reg && k != id ==> r[k] == reg[k]
  {
    if id in reg then reg[id := Conn(reg[id].resDestroyed || res, reg[id].streamDestroyed || stream)] else reg
  }

  /** `cleanUp` of the request `id`, run on request close and response finish.
      While `id` is registered, the closure's `readStream` is the entry's
      stream. Once the entry is gone its stream has been destroyed, because
      `cleanUp`, the catch block and the sweep each destroy it before
      deleting. So the stream is alive exactly when the entry is registered
      with a live stream: then it is destroyed and the entry deleted;
      otherwise nothing changes, even if the entry is still registered. */
  function CleanUp(reg: Registry, id: ConnId): (r: Registry)
    ensures id in r <==> id in reg && reg[id].streamDestroyed
    ensures forall k :: k != id ==> (k in r <==> k in reg)
    ensures forall k :: k in r ==> k in reg && r[k] == reg[k]
  {
    if id in reg && !reg[id].streamDestroyed then reg - {id} else reg
  }

  /** The registry the periodic sweep leaves: the entries with neither side
      destroyed, unchanged. */
  function Sweep(reg: Registry): (r: Registry)
    ensures forall k :: k in r ==> !Dead(r[k])
  {
    map k | k in reg && !Dead(reg[k]) :: reg[k]
  }

  /** One tick of `setInterval(() => ACTIVE_CONNECTIONS.forEach(...))`: every
      entry with a destroyed side has its read stream destroyed and is
      deleted. Also returns the ids whose stream `destroy()` was called on. */
  method SweepEach(reg: Registry) returns (r: Registry, destroyed: set<ConnId>)
    ensures forall k :: k in r <==> k in reg && !Dead(reg[k])
    ensures forall k :: k in r ==> r[k] == reg[k]
    ensures forall k :: k in destroyed <==> k in reg && Dead(reg[k])
    ensures r == Sweep(reg)
  {
    r := reg;
    destroyed := {};
    var pending := reg.Keys;
    while pending != {}
      invariant pending <= reg.Keys
      invariant forall k :: k in pending ==> k in r
      invariant forall k :: k in reg && k !in pending ==> (k in r <==> !Dead(reg[k]))
      invariant forall k :: k in r ==> k in reg && r[k] == reg[k]
      invariant forall k :: k in destroyed <==> k in reg && k !in pending && Dead(reg[k])
      decreases pending
    {
      var id :| id in pending;
      if Dead(r[id]) {
        destroyed := destroyed + {id};
        r := r - {id};
      }
      pending := pending - {id};
    }
  }

  /** Sweeping twice removes nothing more than sweeping once. */
  lemma SweepIdempotent(reg: Registry)
    ensures Sweep(Sweep(reg)) == Sweep(reg)
  {
  }

  /** A registry of live entries is left as it is. */
  lemma SweepKeepsLive(reg: Registry)
    requires forall k :: k in reg ==> !Dead(reg[k])
    ensures Sweep(reg) == reg
  {
  }

  /** A request whose stream has already ended keeps its entry through
      `cleanUp` (the stream is already destroyed); only the next sweep
      removes it. */
  lemma EndedStreamLeftForSweep(reg: Registry, id: ConnId)
    requires id in reg
    ensures var ended := Destroy(reg, id, false, true);
            id in CleanUp(ended, id) && id !in Sweep(CleanUp(ended, id))
  {
  }

  /** A client that goes away while its stream is still alive has its entry
      deleted by `cleanUp` on `close`. */
  lemma ClosedClientCleanedUp(reg: Registry, id: ConnId)
    requires id in reg && !reg[id].streamDestroyed
    ensures id !in CleanUp(Destroy(reg, id, true, false), id)
  {
  }

  /** `cleanUp` runs on both `close` and `finish`; the second run changes nothing. */
  lemma CleanUpIdempotent(reg: Registry, id: ConnId)
    ensures CleanUp(CleanUp(reg, id), id) == CleanUp(reg, id)
  {
  }

  /** `cleanUp` and the sweep can run in either order. */
  lemma CleanUpCommutesWithSweep(reg: Registry, id: ConnId)
    ensures Sweep(CleanUp(reg, id)) == CleanUp(Sweep(reg), id)
  {
  }
}

=== FILE: deno_gateway.dfy ===
/** The request handler of main.ts (lines 46-110): magnet validation, the
    cached torrent lookup, range negotiation, and the mapping of thrown
    errors to 451 or 500. */
module DenoGateway {
  import opened Wrappers
  import opened JsString
  import opened JsNumber
  import opened Http
  import opened Torrent
  import opened Magnet
  import opened TorrentCache
  import DenoRange

  /** The body of the 400 reply. */
  const INVALID_MAGNET_TEXT: string := "Magnet link inv\U{E1}lido"

  /** The message of the `TypeError` raised by `file.length` when the torrent
      had no files and `file` is `undefined`. */
  const UNDEFINED_FILE_MESSAGE: string := "Cannot read " + "properties of " + "undefined " + "(reading 'length')"

  /** The substring the catch block looks for to answer 451. */
  const LEGAL_MARKER: string := "blockeado"

  /** The status of the reply to a thrown error. */
  function ErrorStatus(message: string): (status: nat)
    ensures status == 451 || status == 500
    ensures status == 451 <==> Includes(message, LEGAL_MARKER)
  {
    if Includes(message, LEGAL_MARKER) then 451 else 500
  }

  /** The catch block: the error's own message as body. */
  function ErrorReply(message: string): Reply
  {
    TextReply(ErrorStatus(message), message)
  }

  /** The reply main.ts sends and the cache after the request. */
  datatype Served = Served(reply: Reply, cache: Cache)

  /** One request: the `magnet` query parameter, the `Range` header, the
      cache and clock, and how the torrent would resolve and when. */
  function Serve(magnet: Option<string>, range: Option<string>, cache: Cache, now: int,
                 resolution: Resolution, readyAt: int): (r: Served)
    ensures r.reply.status == 400 <==> !IsValidMagnet(magnet)
    ensures !IsValidMagnet(magnet) ==> r.cache == cache
    ensures r.reply.status in {200, 206, 400, 416, 451, 500}
    ensures r.reply.status == 451 ==> r.reply.body.Text? && Includes(r.reply.body.text, LEGAL_MARKER)
    ensures IsValidMagnet(magnet) ==>
              var lookup := GetTorrent(cache, magnet.value, now, resolution, readyAt);
              && r.cache == lookup.cache
              && (lookup.result.Err? ==> r.reply == ErrorReply(lookup.result.message))
              && (lookup.result == Ok(None) ==> r.reply == ErrorReply(UNDEFINED_FILE_MESSAGE))
              && (lookup.result.Ok? && lookup.result.value.Some? ==>
                    var length := lookup.result.value.value.length;
                    r.reply == DenoRange.Respond(DenoRange.Negotiate(range, length), length))
  {
    if !IsValidMagnet(magnet) then Served(TextReply(400, INVALID_MAGNET_TEXT), cache)
    else
      var lookup := GetTorrent(cache, magnet.value, now, resolution, readyAt);
      match lookup.result
      case Err(message) => Served(ErrorReply(message), lookup.cache)
      case Ok(None) => Served(ErrorReply(UNDEFINED_FILE_MESSAGE), lookup.cache)
      case Ok(Some(file)) =>
        Served(DenoRange.Respond(DenoRange.Negotiate(range, file.length), file.length), lookup.cache)
  }

  /** A message without the letter `k` cannot contain "blockeado". */
  lemma NotLegalWithoutK(message: string)
    requires 'k' !in message
    ensures ErrorStatus(message) == 500
  {
    NotIncludedWhenCharMissing(message, LEGAL_MARKER, 'k');
  }

  /** A missing magnet or one without the `magnet:?` prefix gets 400 with
      the cache untouched, whatever the torrent, clock or range would be. */
  lemma InvalidMagnetRejected(magnet: Option<string>, range: Option<string>, cache: Cache, now: int,
                              resolution: Resolution, readyAt: int)
    requires magnet.None? || !StartsWith(magnet.value, MAGNET_PREFIX)
    ensures Serve(magnet, range, cache, now, resolution, readyAt) == Served(TextReply(400, INVALID_MAGNET_TEXT), cache)
  {
  }

  /** A valid magnet whose lookup throws is answered through the catch
      block with the thrown message. */
  lemma LookupErrorReply(magnet: string, range: Option<string>, cache: Cache, now: int,
                         resolution: Resolution, readyAt: int)
    requires StartsWith(magnet, MAGNET_PREFIX)
    requires GetTorrent(cache, magnet, now, resolution, readyAt).result.Err?
    ensures var lookup := GetTorrent(cache, magnet, now, resolution, readyAt);
            Serve(Some(magnet), range, cache, now, resolution, readyAt)
              == Served(ErrorReply(lookup.result.message), lookup.cache)
  {
  }

  /** The blocklist's own message does not contain "blockeado" (it says
      "bloqueado"), so blocked content is answered with 500, not 451. */
  lemma BlockedMessageNotLegal()
    ensures ErrorStatus(BLOCKED_MESSAGE) == 500
  {
    assert 'k' !in "Contenido " && 'k' !in "bloqueado por " && 'k' !in "derechos de autor";
    NotLegalWithoutK(BLOCKED_MESSAGE);
  }

  /** A blocked magnet that is not in the cache gets a 500 carrying the
      blocklist message, and is not cached. */
  lemma BlockedContentIs500(magnet: string, range: Option<string>, cache: Cache, now: int,
                            resolution: Resolution, readyAt: int)
    requires StartsWith(magnet, MAGNET_PREFIX) && IsBlocked(magnet)
    requires !(magnet in cache && Fresh(cache[magnet], now))
    ensures var r := Serve(Some(magnet), range, cache, now, resolution, readyAt);
            r.reply == TextReply(500, BLOCKED_MESSAGE) && magnet !in r.cache
  {
    LookupErrorReply(magnet, range, cache, now, resolution, readyAt);
    BlockedMessageNotLegal();
  }

  /** The `TypeError` raised for a torrent without files is answered with 500. */
  lemma UndefinedFileNotLegal()
    ensures ErrorStatus(UNDEFINED_FILE_MESSAGE) == 500
  {
    assert 'k' !in "Cannot read " && 'k' !in "properties of " && 'k' !in "undefined " && 'k' !in "(reading 'length')";
    NotLegalWithoutK(UNDEFINED_FILE_MESSAGE);
  }

  /** The timeout message is answered with 500. */
  lemma TimeoutNotLegal()
    ensures ErrorStatus(TIMEOUT_MESSAGE) == 500
  {
    assert 'k' !in "Timeout: No se " && 'k' !in "encontraron " && 'k' !in "peers en " && 'k' !in "8 segundos";
    NotLegalWithoutK(TIMEOUT_MESSAGE);
  }

  /** 451 is only ever the echo of an engine error whose message happens to
      contain "blockeado": neither the blocklist, the timeout nor the
      missing-file error can produce it. */
  lemma LegalStatusOnlyFromEngine(magnet: Option<string>, range: Option<string>, cache: Cache, now: int,
                                  resolution: Resolution, readyAt: int)
    requires Serve(magnet, range, cache, now, resolution, readyAt).reply.status == 451
    ensures resolution.Failed? && Includes(resolution.message, LEGAL_MARKER)
  {
    var r := Serve(magnet, range, cache, now, resolution, readyAt);
    var lookup := GetTorrent(cache, magnet.value, now, resolution, readyAt);
    if lookup.result.Ok? {
      if lookup.result.value.None? {
        assert r.reply == ErrorReply(UNDEFINED_FILE_MESSAGE);
        UndefinedFileNotLegal();
      }
      assert false;
    } else {
      assert r.reply == ErrorReply(lookup.result.message);
      if lookup.result.message == BLOCKED_MESSAGE {
        BlockedMessageNotLegal();
        assert false;
      }
    }
  }

  /** A valid magnet whose torrent resolves to no file is answered through
      the catch block with the `TypeError` message, and the `undefined` file
      is cached. */
  lemma MissingFileReply(magnet: string, range: Option<string>, cache: Cache, now: int,
                         resolution: Resolution, readyAt: int)
    requires StartsWith(magnet, MAGNET_PREFIX)
    requires GetTorrent(cache, magnet, now, resolution, readyAt).result == Ok(None)
    ensures var lookup := GetTorrent(cache, magnet, now, resolution, readyAt);
            Serve(Some(magnet), range, cache, now, resolution, readyAt)
              == Served(ErrorReply(UNDEFINED_FILE_MESSAGE), lookup.cache)
  {
  }

  /** A torrent that resolves with files is cached with the picked video,
      and the request is answered by range negotiation over that file. */
  lemma ResolvedFileServed(magnet: string, range: Option<string>, cache: Cache, now: int,
                           files: seq<TorrentFile>, readyAt: int)
    requires StartsWith(magnet, MAGNET_PREFIX) && !IsBlocked(magnet)
    requires !(magnet in cache && Fresh(cache[magnet], now))
    requires |files| > 0
    ensures var r := Serve(Some(magnet), range, cache, now, Ready(files), readyAt);
            var file := PickVideo(files).value;
            && r.cache[magnet] == Entry(Some(file), readyAt)
            && r.reply == DenoRange.Respond(DenoRange.Negotiate(range, file.length), file.length)
            && r.reply.status in {200, 206, 416}
  {
  }

  /** A torrent with no files is cached with an `undefined` file, and every
      request for it fails with the `TypeError` until the entry expires. */
  lemma NoFilesIs500(magnet: string, range: Option<string>, cache: Cache, now: int, readyAt: int)
    requires StartsWith(magnet, MAGNET_PREFIX) && !IsBlocked(magnet)
    requires !(magnet in cache && Fresh(cache[magnet], now))
    ensures var r := Serve(Some(magnet), range, cache, now, Ready([]), readyAt);
            r.reply == TextReply(500, UNDEFINED_FILE_MESSAGE) && r.cache[magnet] == Entry(None, readyAt)
  {
    MissingFileReply(magnet, range, cache, now, Ready([]), readyAt);
    UndefinedFileNotLegal();
  }

  /** A timeout is answered with 500 and the timeout message. */
  lemma TimeoutIs500(magnet: string, range: Option<string>, cache: Cache, now: int, readyAt: int)
    requires StartsWith(magnet, MAGNET_PREFIX) && !IsBlocked(magnet)
    requires !(magnet in cache && Fresh(cache[magnet], now))
    ensures Serve(Some(magnet), range, cache, now, Failed(TIMEOUT_MESSAGE), readyAt).reply
         == TextReply(500, TIMEOUT_MESSAGE)
  {
    LookupErrorReply(magnet, range, cache, now, Failed(TIMEOUT_MESSAGE), readyAt);
    TimeoutNotLegal();
  }
}

=== FILE: deno_range.dfy ===
/** Range negotiation of main.ts (lines 71-95): the header's parts stay
    strings, the start goes through `parseInt`, an empty or missing end
    becomes `length - 1` before the 416 test, and a non-empty end goes
    through `parseInt` with no further check. */
module DenoRange {
  import opened Wrappers
  import opened JsString
  import opened JsNumber
  import opened Http

  /** `[startStr, endStr] = range.replace(/bytes=/, "").split("-")`; an end
      missing from the split is `undefined` (None). */
  function Parts(header: string): (r: (string, Option<string>))
    ensures '-' !in r.0
    ensures r.1.Some? ==> '-' !in r.1.value
  {
    var pieces := Split(ReplaceFirst(header, "bytes=", ""), '-');
    (pieces[0], if |pieces| > 1 then Some(pieces[1]) else None)
  }

  /** `endStr ? parseInt(endStr, 10) : file.length - 1` */
  function EndOf(endStr: Option<string>, length: nat): (r: Num)
    ensures endStr.None? || |endStr.value| == 0 ==> r == Val(length - 1)
    ensures endStr.Some? && '-' !in endStr.value && r.Val? ==> r.v >= -1
  {
    if endStr.Some? && |endStr.value| > 0 then ParseInt(endStr.value) else Val(length - 1)
  }

  /** The 416 test on the parsed bounds; a window keeps them as they are. */
  function Decide(start: Num, end: Num, length: nat): (r: Negotiation)
    ensures r.Unsatisfiable? <==> AtLeast(start, length) || AtLeast(end, length)
    ensures r.Window? ==> r.start == start && r.end == end
    ensures !r.NoRange?
  {
    if AtLeast(start, length) || AtLeast(end, length) then Unsatisfiable
    else Window(start, end)
  }

  /** The range decision of main.ts for a `Range` header (None when the
      request has none) and the picked file's length. */
  function Negotiate(header: Option<string>, length: nat): (r: Negotiation)
    ensures r.NoRange? <==> header.None? || |header.value| == 0
    ensures r.Window? ==> (r.start.Val? ==> 0 <= r.start.v < length)
    ensures r.Window? ==> (r.end.Val? ==> r.end.v < length)
    ensures r.Window? && r.start.Val? && r.end.Val? ==> 0 <= r.end.v
  {
    if header.None? || |header.value| == 0 then NoRange
    else
      var (startStr, endStr) := Parts(header.value);
      Decide(ParseInt(startStr), EndOf(endStr, length), length)
  }

  /** The `Response` main.ts builds for a negotiation: 200 with the file's
      length, 206 with the window, or 416 with a null body and no
      `Content-Length`. */
  function Respond(n: Negotiation, length: nat): (r: Reply)
    ensures r.status in {200, 206, 416}
    ensures r.status == 200 <==> n.NoRange?
    ensures r.status == 416 <==> n.Unsatisfiable?
    ensures r.status == 416 ==> r.body == NoBody && r.contentRange == Some("bytes */" + Decimal(length)) && r.contentLength.None?
    ensures r.status == 200 ==> r.contentLength == Some(Decimal(length)) && r.body == WholeFile
    ensures n.Window? ==> r == PartialReply(n.start, n.end, length)
  {
    match n
    case NoRange => Reply(200, None, Some(Decimal(length)), WholeFile)
    case Window(start, end) => PartialReply(start, end, size := length)
    case Unsatisfiable => Reply(416, Some(UnsatisfiedRange(length)), None, NoBody)
  }

  /** A non-empty header is parsed and then decided. */
  lemma NegotiateHeader(header: string, length: nat)
    requires |header| > 0
    ensures Negotiate(Some(header), length)
         == Decide(ParseInt(Parts(header).0), EndOf(Parts(header).1, length), length)
  {
  }

  /** The parts of a well-formed `bytes=first-last` or `bytes=first-` header. */
  lemma PartsOfHeader(first: nat, last: Option<nat>)
    ensures Parts(RangeHeader(first, last)) == (Decimal(first), Some(if last.Some? then Decimal(last.value) else ""))
  {
    RangeHeaderPieces(first, last);
  }

  /** `bytes=first-last`: 416 when either bound reaches the length, otherwise
      exactly that window, an end of 0 included. */
  lemma ExplicitRange(first: nat, last: nat, length: nat)
    ensures Negotiate(Some(RangeHeader(first, Some(last))), length)
         == if first >= length || last >= length then Unsatisfiable else Window(Val(first), Val(last))
  {
    NegotiateHeader(RangeHeader(first, Some(last)), length);
    PartsOfHeader(first, Some(last));
    ParseIntDecimal(first);
    ParseIntDecimal(last);
    assert EndOf(Some(Decimal(last)), length) == Val(last);
  }

  /** `bytes=first-`: the end is the last byte of the file, with no cap. */
  lemma OpenEndedRange(first: nat, length: nat)
    ensures Negotiate(Some(RangeHeader(first, None)), length)
         == if first >= length then Unsatisfiable else Window(Val(first), Val(length - 1))
  {
    NegotiateHeader(RangeHeader(first, None), length);
    PartsOfHeader(first, None);
    ParseIntDecimal(first);
  }

  /** `bytes=first`: the missing end also defaults to the last byte. */
  lemma StartOnlyRange(first: nat, length: nat)
    ensures Negotiate(Some("bytes=" + Decimal(first)), length)
         == if first >= length then Unsatisfiable else Window(Val(first), Val(length - 1))
  {
    NegotiateHeader("bytes=" + Decimal(first), length);
    StartOnlyHeaderPieces(first);
    ParseIntDecimal(first);
  }

  /** Behind `bytes=`, the start part ends at the first dash and the end
      part at the next one. */
  lemma PartsAfterPrefix(a: string, b: string)
    requires '-' !in a
    ensures Parts("bytes=" + (a + ['-'] + b)) == (a, Some(Split(b, '-')[0]))
  {
    var ranges := a + ['-'] + b;
    ReplaceFirstPrefix("bytes=", ranges, "");
    assert "" + ranges == ranges;
    SplitAfterPiece(a, b, '-');
  }

  /** The parts of a well-formed header followed by more text: the text up
      to its first dash joins the end part. */
  lemma PartsWithTail(first: nat, last: nat, tail: string)
    ensures Parts(RangeHeader(first, Some(last)) + tail) == (Decimal(first), Some(Decimal(last) + Split(tail, '-')[0]))
  {
    RangeHeaderThen(first, last, tail);
    DecimalHasNoDash(first);
    DecimalHasNoDash(last);
    PartsAfterPrefix(Decimal(first), Decimal(last) + tail);
    SplitPrepend(Decimal(last), tail, '-');
  }

  /** `parseInt` stops at the first non-digit, so anything after the end's
      digits is ignored; `bytes=0-99,200-299` is served as `bytes=0-99`. */
  lemma TrailingTextIgnored(first: nat, last: nat, tail: string, length: nat)
    requires |tail| == 0 || !IsDigit(tail[0])
    ensures Negotiate(Some(RangeHeader(first, Some(last)) + tail), length)
         == Negotiate(Some(RangeHeader(first, Some(last))), length)
  {
    PartsWithTail(first, last, tail);
    var rest := Split(tail, '-')[0];
    SplitHeadIsPrefix(tail, '-');
    assert |rest| == 0 || !IsDigit(rest[0]) by {
      if |rest| > 0 {
        assert rest[0] == tail[0];
      }
    }
    ParseIntOfDecimal(last, rest);
    assert EndOf(Some(Decimal(last) + rest), length) == Val(last);
    ParseIntDecimal(first);
    ExplicitRange(first, last, length);
  }
}

=== FILE: express_gateway.dfy ===
/** The `/stream` handler of server.js (lines 34-142): the magnet check, the
    torrent's resolution, the video file, range negotiation, registration of
    the connection, the pipeline's failure and the catch block that maps an
    error to a 500 reply. */
module ExpressGateway {
  import opened Wrappers
  import opened JsString
  import opened JsNumber
  import opened Http
  import opened Torrent
  import opened Connections
  import ExpressRange

  /** Thrown when the `magnet` query parameter is falsy. */
  const MAGNET_REQUIRED: string := "Magnet " + "link " + "requerido"

  /** Thrown when the torrent has no file at all. */
  const NO_VIDEO_FILE: string := "Archivo " + "de video " + "no encontrado"

  /** The rejection of the metadata wait after `PEERS_TIMEOUT`. */
  const PEERS_TIMEOUT_MESSAGE: string := TIMEOUT_MARKER + ": No se " + "encontraron peers"

  /** The 500 body for an error whose message mentions a timeout. */
  const UNAVAILABLE_TEXT: string := "El contenido " + "no est\U{E1} " + "disponible"

  /** The 500 body for every other error. */
  const SERVER_ERROR_TEXT: string := "Error " + "en el servidor"

  /** The substring that selects `UNAVAILABLE_TEXT`. */
  const TIMEOUT_MARKER: string := "Timeout"

  /** The substring of a pipeline error that the handler ignores. */
  const PREMATURE_CLOSE_MARKER: string := "premature close"

  /** The message Node gives a stream closed before it ended
      (`ERR_STREAM_PREMATURE_CLOSE`). */
  const NODE_PREMATURE_CLOSE: string := "Premature close"

  /** The body of the catch block's 500 reply: only two texts are ever sent,
      and the error's own message never is. */
  function ErrorText(message: string): (text: string)
    ensures text == UNAVAILABLE_TEXT || text == SERVER_ERROR_TEXT
    ensures text == UNAVAILABLE_TEXT <==> Includes(message, TIMEOUT_MARKER)
  {
    if Includes(message, TIMEOUT_MARKER) then UNAVAILABLE_TEXT else SERVER_ERROR_TEXT
  }

  /** The pipeline's `.catch`: the error is dropped exactly when its message
      contains "premature close". */
  predicate Swallowed(message: string)
  {
    Includes(message, PREMATURE_CLOSE_MARKER)
  }

  /** How `pipeline(readStream, res)` settles: it completes, or it rejects
      with a message, `wroteBody` telling whether a chunk had already been
      written to the response (which sends the headers of a 200 reply). */
  datatype Pipeline = Completed | Rejected(message: string, wroteBody: bool)

  /** The reply the client receives and the registry when the handler's
      promise settles. The `cleanUp` listeners run as their own transitions
      (`Connections.CleanUp`) and are not part of this. */
  datatype Handled = Handled(reply: Reply, registry: Registry)

  /** The catch block: a 500 reply unless the headers already went out, in
      which case the reply already under way is kept; the connection is
      always deleted. */
  function Catch(message: string, sent: Option<Reply>, reg: Registry, id: ConnId): (r: Handled)
    requires sent.Some? ==> sent.value.status in {200, 206}
    ensures r.registry == reg - {id}
    ensures sent.None? ==> r.reply == TextReply(500, ErrorText(message))
    ensures sent.Some? ==> r.reply == sent.value
  {
    Handled(if sent.Some? then sent.value else TextReply(500, ErrorText(message)), reg - {id})
  }

  /** Streaming after the connection is registered: a completed or swallowed
      pipeline keeps the reply and the live registration; any other
      rejection goes to the catch block, which keeps the reply when its
      headers are out (always for a 206, after the first chunk for a 200). */
  function Stream(reply: Reply, reg: Registry, id: ConnId, pipeline: Pipeline): (r: Handled)
    requires reply.status in {200, 206}
    ensures r.reply.status in {200, 206, 500}
    ensures r.reply.status == 500 ==> r.reply.body == Text(UNAVAILABLE_TEXT) || r.reply.body == Text(SERVER_ERROR_TEXT)
    ensures forall k :: k != id ==> (k in r.registry <==> k in reg)
    ensures forall k :: k != id && k in reg ==> r.registry[k] == reg[k]
    ensures id in r.registry <==> pipeline.Completed? || Swallowed(pipeline.message)
    ensures id in r.registry ==> r.reply == reply && !Dead(r.registry[id])
    ensures id !in r.registry ==> r.registry == reg - {id}
    ensures pipeline.Rejected? && !Swallowed(pipeline.message) ==>
              if reply.status == 206 || pipeline.wroteBody then r.reply == reply
              else r.reply == TextReply(500, ErrorText(pipeline.message))
  {
    var registered := Register(reg, id);
    match pipeline
    case Completed => Handled(reply, registered)
    case Rejected(message, wroteBody) =>
      if Swallowed(message) then Handled(reply, registered)
      else Catch(message, if reply.status == 206 || wroteBody then Some(reply) else None, registered, id)
  }

  /** The magnet check passes: the query parameter is present and non-empty. */
  predicate Admitted(magnet: Option<string>)
  {
    magnet.Some? && magnet.value != ""
  }

  /** One request. `magnet` is the query parameter; `parseFailure` the message
      thrown when `parseTorrent` rejects the magnet or it carries no info hash;
      `resolution` how the metadata wait ends (a timeout is
      `Failed(PEERS_TIMEOUT_MESSAGE)`); `range` the `Range` header; `reg` the
      registry and `id` this request's fresh connection id; `pipeline` how
      streaming ends. */
  function Handle(magnet: Option<string>, parseFailure: Option<string>, resolution: Resolution,
                  range: Option<string>, reg: Registry, id: ConnId, pipeline: Pipeline): (r: Handled)
    ensures r.reply.status in {200, 206, 416, 500}
    ensures r.reply.status == 500 ==> r.reply.body == Text(UNAVAILABLE_TEXT) || r.reply.body == Text(SERVER_ERROR_TEXT)
    ensures magnet.None? || magnet == Some("") ==> r == Handled(TextReply(500, SERVER_ERROR_TEXT), reg - {id})
    ensures r.reply.status == 416 ==> r.registry == reg
    ensures r.reply.status != 416 ==> forall k :: k != id ==> (k in r.registry <==> k in reg)
    ensures r.reply.status != 416 && id in r.registry ==> r.reply.status in {200, 206} && !Dead(r.registry[id])
    ensures r.reply.status != 416 ==> forall k :: k != id && k in reg ==> r.registry[k] == reg[k]
    ensures Admitted(magnet) && parseFailure.Some? ==>
              r == Handled(TextReply(500, ErrorText(parseFailure.value)), reg - {id})
    ensures Admitted(magnet) && parseFailure.None? && resolution.Failed? ==>
              r == Handled(TextReply(500, ErrorText(resolution.message)), reg - {id})
    ensures Admitted(magnet) && parseFailure.None? && resolution.Ready? && |resolution.files| == 0 ==>
              r == Handled(TextReply(500, SERVER_ERROR_TEXT), reg - {id})
    ensures Admitted(magnet) && parseFailure.None? && resolution.Ready? && |resolution.files| > 0 ==>
              var size := PickVideo(resolution.files).value.length;
              var n := ExpressRange.Negotiate(range, size);
              && (n.Unsatisfiable? ==> r == Handled(ExpressRange.Respond(n, size), reg))
              && (!n.Unsatisfiable? ==> r == Stream(ExpressRange.Respond(n, size), reg, id, pipeline))
              && (id in r.registry ==> r.reply == ExpressRange.Respond(n, size))
  {
    if !Admitted(magnet) then
      MagnetRequiredText();
      Catch(MAGNET_REQUIRED, None, reg, id)
    else if parseFailure.Some? then Catch(parseFailure.value, None, reg, id)
    else match resolution
      case Failed(message) => Catch(message, None, reg, id)
      case Ready(files) =>
        var video := PickVideo(files);
        if video.None? then
          NoVideoFileText();
          Catch(NO_VIDEO_FILE, None, reg, id)
        else
          var size := video.value.length;
          var n := ExpressRange.Negotiate(range, size);
          var reply := ExpressRange.Respond(n, size);
          if n.Unsatisfiable? then Handled(reply, reg)
          else Stream(reply, reg, id, pipeline)
  }

  /** The error thrown for a missing magnet gets the generic text. */
  lemma MagnetRequiredText()
    ensures ErrorText(MAGNET_REQUIRED) == SERVER_ERROR_TEXT
  {
    ServerErrorWithoutT(MAGNET_REQUIRED);
  }

  /** The error thrown for a torrent without files gets the generic text. */
  lemma NoVideoFileText()
    ensures ErrorText(NO_VIDEO_FILE) == SERVER_ERROR_TEXT
  {
    ServerErrorWithoutT(NO_VIDEO_FILE);
  }

  /** A missing or empty `magnet` parameter is answered with the generic 500
      text, not with "Magnet link requerido". */
  lemma MissingMagnetIs500(parseFailure: Option<string>, resolution: Resolution, range: Option<string>,
                           reg: Registry, id: ConnId, pipeline: Pipeline)
    ensures Handle(None, parseFailure, resolution, range, reg, id, pipeline).reply == TextReply(500, SERVER_ERROR_TEXT)
    ensures Handle(Some(""), parseFailure, resolution, range, reg, id, pipeline).reply == TextReply(500, SERVER_ERROR_TEXT)
  {
  }

  /** The metadata timeout is the one error answered with the "not
      available" text. */
  lemma TimeoutIsUnavailable(magnet: string, range: Option<string>, reg: Registry, id: ConnId, pipeline: Pipeline)
    requires magnet != ""
    ensures Handle(Some(magnet), None, Failed(PEERS_TIMEOUT_MESSAGE), range, reg, id, pipeline)
         == Handled(TextReply(500, UNAVAILABLE_TEXT), reg - {id})
  {
    IncludesPrefix(PEERS_TIMEOUT_MESSAGE, TIMEOUT_MARKER, ": No se " + "encontraron peers");
  }

  /** An error whose message has no capital `T` gets the generic text. */
  lemma ServerErrorWithoutT(message: string)
    requires 'T' !in message
    ensures ErrorText(message) == SERVER_ERROR_TEXT
  {
    NotIncludedWhenCharMissing(message, TIMEOUT_MARKER, 'T');
  }

  /** A torrent without files is answered with the generic 500 text; the
      "Archivo de video no encontrado" message never reaches the client. */
  lemma NoFilesIs500(magnet: string, range: Option<string>, reg: Registry, id: ConnId, pipeline: Pipeline)
    requires magnet != ""
    ensures Handle(Some(magnet), None, Ready([]), range, reg, id, pipeline)
         == Handled(TextReply(500, SERVER_ERROR_TEXT), reg - {id})
  {
    ServerErrorWithoutT(NO_VIDEO_FILE);
  }

  /** A 416 reply returns before the stream is created: nothing is
      registered, whatever the pipeline would have done. */
  lemma UnsatisfiableNotRegistered(magnet: string, files: seq<TorrentFile>, range: Option<string>,
                                   reg: Registry, id: ConnId, pipeline: Pipeline)
    requires magnet != "" && PickVideo(files).Some?
    requires ExpressRange.Negotiate(range, PickVideo(files).value.length).Unsatisfiable?
    ensures var r := Handle(Some(magnet), None, Ready(files), range, reg, id, pipeline);
            r.reply.status == 416 && r.registry == reg
  {
  }

  /** A stream that completes stays registered, alive, when the handler
      returns: only `cleanUp` or the sweep remove it. */
  lemma CompletedStaysRegistered(magnet: string, files: seq<TorrentFile>, range: Option<string>,
                                 reg: Registry, id: ConnId)
    requires magnet != "" && PickVideo(files).Some?
    requires !ExpressRange.Negotiate(range, PickVideo(files).value.length).Unsatisfiable?
    ensures var r := Handle(Some(magnet), None, Ready(files), range, reg, id, Completed);
            r.reply.status in {200, 206} && id in r.registry && !Dead(r.registry[id])
  {
  }

  /** A request without a `Range` header for a torrent with files is
      answered with 200 over the whole picked video, with its size as
      `Content-Length`, and every other connection is left as it was. */
  lemma WholeVideoStreamed(magnet: string, files: seq<TorrentFile>, reg: Registry, id: ConnId)
    requires magnet != "" && |files| > 0
    ensures var r := Handle(Some(magnet), None, Ready(files), None, reg, id, Completed);
            var size := PickVideo(files).value.length;
            && r.reply == Reply(200, None, Some(Decimal(size)), FileRange(Val(0), Val(size - 1)))
            && r.registry == Register(reg, id)
  {
  }

  /** After a completed stream, the connection is gone either way: `cleanUp`
      on `finish` deletes it while its stream is alive, and once the stream
      has ended and destroyed itself the next sweep does. */
  lemma CompletedThenRemoved(magnet: string, files: seq<TorrentFile>, range: Option<string>,
                             reg: Registry, id: ConnId)
    requires magnet != "" && PickVideo(files).Some?
    requires !ExpressRange.Negotiate(range, PickVideo(files).value.length).Unsatisfiable?
    ensures var r := Handle(Some(magnet), None, Ready(files), range, reg, id, Completed);
            && id !in CleanUp(r.registry, id)
            && id !in Sweep(CleanUp(Destroy(r.registry, id, false, true), id))
  {
    CompletedStaysRegistered(magnet, files, range, reg, id);
  }

  /** Node's own premature-close message is capitalised, so the lowercase
      test in the pipeline's catch does not swallow it. */
  lemma NodePrematureCloseNotSwallowed()
    ensures !Swallowed(NODE_PREMATURE_CLOSE)
  {
    NotIncludedWhenCharMissing(NODE_PREMATURE_CLOSE, PREMATURE_CLOSE_MARKER, 'p');
  }

  /** Any pipeline error without the lowercase marker ends in the catch
      block with the connection registered just before. */
  lemma UnswallowedReachesCatch(magnet: string, files: seq<TorrentFile>, range: Option<string>,
                                reg: Registry, id: ConnId, message: string, wroteBody: bool)
    requires magnet != "" && PickVideo(files).Some?
    requires !ExpressRange.Negotiate(range, PickVideo(files).value.length).Unsatisfiable?
    requires !Swallowed(message)
    ensures var size := PickVideo(files).value.length;
            var reply := ExpressRange.Respond(ExpressRange.Negotiate(range, size), size);
            Handle(Some(magnet), None, Ready(files), range, reg, id, Rejected(message, wroteBody))
              == Catch(message, if reply.status == 206 || wroteBody then Some(reply) else None, Register(reg, id), id)
  {
  }

  /** Node's premature-close message gets the generic 500 text. */
  lemma NodePrematureCloseText()
    ensures ErrorText(NODE_PREMATURE_CLOSE) == SERVER_ERROR_TEXT
  {
    ServerErrorWithoutT(NODE_PREMATURE_CLOSE);
  }

  /** A client that goes away mid-transfer makes the pipeline reject with
      Node's message: the handler ends in the catch block, keeps the reply
      already under way when its headers are out, and deletes the connection. */
  lemma ClientAbortReachesCatch(magnet: string, files: seq<TorrentFile>, range: Option<string>,
                                reg: Registry, id: ConnId, wroteBody: bool)
    requires magnet != "" && PickVideo(files).Some?
    requires !ExpressRange.Negotiate(range, PickVideo(files).value.length).Unsatisfiable?
    ensures var size := PickVideo(files).value.length;
            var reply := ExpressRange.Respond(ExpressRange.Negotiate(range, size), size);
            var r := Handle(Some(magnet), None, Ready(files), range, reg, id, Rejected(NODE_PREMATURE_CLOSE, wroteBody));
            && id !in r.registry
              && (reply.status == 206 || wroteBody ==> r.reply == reply)
              && (reply.status == 200 && !wroteBody ==> r.reply == TextReply(500, SERVER_ERROR_TEXT))
  {
    NodePrematureCloseNotSwallowed();
    NodePrematureCloseText();
    UnswallowedReachesCatch(magnet, files, range, reg, id, NODE_PREMATURE_CLOSE, wroteBody);
  }

  /** A pipeline error whose message contains the lowercase marker is
      ignored: the handler returns normally with the connection registered. */
  lemma LowercasePrematureCloseSwallowed(magnet: string, files: seq<TorrentFile>, range: Option<string>,
                                         reg: Registry, id: ConnId, before: string, after: string, wroteBody: bool)
    requires magnet != "" && PickVideo(files).Some?
    requires !ExpressRange.Negotiate(range, PickVideo(files).value.length).Unsatisfiable?
    ensures Handle(Some(magnet), None, Ready(files), range, reg, id,
                   Rejected(before + PREMATURE_CLOSE_MARKER + after, wroteBody))
         == Handle(Some(magnet), None, Ready(files), range, reg, id, Completed)
  {
    IncludesPrefix(PREMATURE_CLOSE_MARKER + after, PREMATURE_CLOSE_MARKER, after);
    IncludesAfter(before, PREMATURE_CLOSE_MARKER + after, PREMATURE_CLOSE_MARKER);
    assert before + PREMATURE_CLOSE_MARKER + after == before + (PREMATURE_CLOSE_MARKER + after);
  }
}

=== FILE: express_range.dfy ===
/** Range negotiation of server.js (lines 84-103): the header's two parts go
    through `Number`, the 416 test runs on the raw parts, and only afterwards
    does a falsy end (0, NaN or a missing part) default to a chunk-capped end. */
module ExpressRange {
  import opened Wrappers
  import opened JsString
  import opened JsNumber
  import opened Http

  /** `CHUNK_SIZE = 5 * 1024 * 1024` */
  const CHUNK_SIZE: nat := 5 * 1024 * 1024

  /** `undefined` converted to a number is `NaN`. */
  function Numeric(part: Option<Num>): Num
  {
    if part.Some? then part.value else NaN
  }

  /** `[start, end] = range.replace(/bytes=/, '').split('-').map(Number)`;
      an end missing from the split is `undefined` (None). */
  function Parts(header: string): (r: (Num, Option<Num>))
    ensures r.0.Val? ==> r.0.v >= 0
    ensures r.1.Some? && r.1.value.Val? ==> r.1.value.v >= 0
  {
    var pieces := Split(ReplaceFirst(header, "bytes=", ""), '-');
    (Number(pieces[0]), if |pieces| > 1 then Some(Number(pieces[1])) else None)
  }

  /** The end the server falls back to: `Math.min(start + CHUNK_SIZE, fileSize - 1)`. */
  function ChunkEnd(start: Num, size: nat): (r: Num)
    ensures start.Val? ==> r.Val? && r.v < size && r.v <= start.v + CHUNK_SIZE
    ensures start.Val? && start.v + CHUNK_SIZE < size ==> r == Val(start.v + CHUNK_SIZE)
    ensures start.Val? && size <= start.v + CHUNK_SIZE + 1 ==> r == Val(size - 1)
    ensures start.NaN? ==> r.NaN?
  {
    MathMin(Plus(start, Val(CHUNK_SIZE)), Val(size - 1))
  }

  /** The 416 test on the raw parts, then the defaulting of a falsy end. */
  function Decide(start: Num, end: Option<Num>, size: nat): (r: Negotiation)
    ensures r.Window? ==> (r.start.Val? ==> r.start.v < size)
    ensures r.Window? ==> (r.end.Val? ==> r.end.v < size)
    ensures r.Window? && r.start.Val? ==> r.end.Val?
    ensures r.Unsatisfiable? <==> AtLeast(start, size) || AtLeast(Numeric(end), size)
    ensures !r.NoRange?
    ensures r.Window? ==> r.start == start
    ensures r.Window? && Truthy(Numeric(end)) ==> r.end == Numeric(end)
    ensures r.Window? && !Truthy(Numeric(end)) ==> r.end == ChunkEnd(start, size)
  {
    if AtLeast(start, size) || AtLeast(Numeric(end), size) then Unsatisfiable
    else Window(start, if Truthy(Numeric(end)) then Numeric(end) else ChunkEnd(start, size))
  }

  /** The range decision of server.js for a `Range` header (None when the
      request has none) and the picked file's size. */
  function Negotiate(header: Option<string>, size: nat): (r: Negotiation)
    ensures r.NoRange? <==> header.None? || |header.value| == 0
    ensures r.Window? ==> (r.start.Val? ==> 0 <= r.start.v < size)
    ensures r.Window? ==> (r.end.Val? ==> r.end.v < size)
    ensures r.Window? && r.start.Val? ==> r.end.Val?
  {
    if header.None? || |header.value| == 0 then NoRange
    else
      var (start, end) := Parts(header.value);
      Decide(start, end, size)
  }

  /** The reply server.js sends for a negotiation. The `Content-Length` set to
      the file size before negotiating stays on a 416 reply; a 206 reply
      replaces it with the window's length. */
  function Respond(n: Negotiation, size: nat): (r: Reply)
    ensures r.status in {200, 206, 416}
    ensures r.status == 200 <==> n.NoRange?
    ensures r.status == 416 <==> n.Unsatisfiable?
    ensures r.status == 416 ==> r.body == NoBody && r.contentRange == Some("bytes */" + Decimal(size))
    ensures r.status == 200 ==> r.contentLength == Some(Decimal(size)) && r.contentRange.None?
    ensures r.status == 200 ==> r.body == FileRange(Val(0), Val(size - 1))
    ensures n.Window? ==> r == PartialReply(n.start, n.end, size)
  {
    match n
    case NoRange => Reply(200, None, Some(Decimal(size)), FileRange(Val(0), Val(size - 1)))
    case Window(start, end) => PartialReply(start, end, size)
    case Unsatisfiable => Reply(416, Some(UnsatisfiedRange(size)), Some(Decimal(size)), NoBody)
  }

  /** A non-empty header is split into parts and then decided. */
  lemma NegotiateHeader(header: string, size: nat)
    requires |header| > 0
    ensures Negotiate(Some(header), size) == Decide(Parts(header).0, Parts(header).1, size)
  {
  }

  /** The parts of a well-formed `bytes=first-last` header, or of
      `bytes=first-` whose empty end is `Number("") == 0`. */
  lemma PartsOfHeader(first: nat, last: Option<nat>)
    ensures Parts(RangeHeader(first, last)) == (Val(first), Some(Val(if last.Some? then last.value else 0)))
  {
    RangeHeaderPieces(first, last);
    NumberOfDecimal(first);
    if last.Some? {
      NumberOfDecimal(last.value);
    } else {
      assert Number("") == Val(0);
    }
  }

  /** The parts of `bytes=first`: the end is `undefined`. */
  lemma PartsOfStartOnly(first: nat)
    ensures Parts("bytes=" + Decimal(first)) == (Val(first), None)
  {
    StartOnlyHeaderPieces(first);
    NumberOfDecimal(first);
  }

  /** `bytes=first-last`: 416 when either bound reaches the file size, an end
      of 0 is read as "no end" and capped at a chunk, any other end is kept. */
  lemma ExplicitRange(first: nat, last: nat, size: nat)
    ensures Negotiate(Some(RangeHeader(first, Some(last))), size)
         == if first >= size || last >= size then Unsatisfiable
            else if last == 0 then Window(Val(first), ChunkEnd(Val(first), size))
            else Window(Val(first), Val(last))
  {
    PartsOfHeader(first, Some(last));
  }

  /** `bytes=first-`: the empty end is 0, so the end is capped at a chunk. */
  lemma OpenEndedRange(first: nat, size: nat)
    ensures Negotiate(Some(RangeHeader(first, None)), size)
         == if first >= size then Unsatisfiable else Window(Val(first), ChunkEnd(Val(first), size))
  {
    PartsOfHeader(first, None);
  }

  /** `bytes=first` without a dash: the end is `undefined`, treated like an
      empty end. */
  lemma StartOnlyRange(first: nat, size: nat)
    ensures Negotiate(Some("bytes=" + Decimal(first)), size)
         == if first >= size then Unsatisfiable else Window(Val(first), ChunkEnd(Val(first), size))
  {
    PartsOfStartOnly(first);
  }

  /** `start <= end` is never checked: a reversed window is served with a
      non-positive `Content-Length`. */
  lemma ReversedRangeAccepted()
    ensures Respond(Negotiate(Some(RangeHeader(50, Some(10))), 100), 100).status == 206
    ensures Respond(Negotiate(Some(RangeHeader(50, Some(10))), 100), 100).contentLength == Some("-39")
  {
    ExplicitRange(50, 10, 100);
    MinusThirtyNine();
  }

  /** The `Content-Length` text of the window from 50 to 10. */
  lemma MinusThirtyNine()
    ensures PartialReply(Val(50), Val(10), 100).contentLength == Some("-39")
  {
    assert SpanLength(Val(50), Val(10)) == Val(-39);
    assert Show(Val(-39)) == "-39" by {
      assert Decimal(39) == "39";
    }
  }

  /** `NaN` parts never trigger the 416 test: an unparsable start with an
      unparsable or missing end is accepted, and the window is `NaN` at both
      ends because the chunk default adds to the `NaN` start. */
  lemma NaNNeverRefused(end: Option<Num>, size: nat)
    requires end.None? || end == Some(NaN)
    ensures Decide(NaN, end, size) == Window(NaN, NaN)
  {
  }

  /** No `Range` header: status 200 over the whole file with its size as
      `Content-Length`. */
  lemma NoHeaderWholeFile(size: nat)
    ensures Respond(Negotiate(None, size), size)
         == Reply(200, None, Some(Decimal(size)), FileRange(Val(0), Val(size - 1)))
  {
  }

}

=== FILE: http.dfy ===
/** The HTTP side of the gateway as returned values: what a `Range` header
    negotiates, and the status, range headers and body of a reply. Constant
    headers (`Accept-Ranges`, `Content-Type`, CORS) are not represented. */
module Http {
  import opened Wrappers
  import opened JsString
  import opened JsNumber

  /** The outcome of negotiating a `Range` header against a file. */
  datatype Negotiation =
    | NoRange                       // no usable header: the whole file, status 200
    | Window(start: Num, end: Num)  // status 206 for bytes start..end
    | Unsatisfiable                 // status 416

  datatype Body =
    | NoBody
    | Text(text: string)
    | WholeFile                       // `createReadStream()` with no bounds
    | FileRange(start: Num, end: Num) // `createReadStream({ start, end })`

  datatype Reply = Reply(status: nat, contentRange: Option<string>, contentLength: Option<string>, body: Body)

  /** `Content-Range: bytes start-end/size` as template literals render it. */
  function ContentRange(start: Num, end: Num, size: nat): string
  {
    "bytes " + Show(start) + "-" + Show(end) + "/" + Decimal(size)
  }

  /** `Content-Range: bytes *\/size`, the header of a 416 reply. */
  function UnsatisfiedRange(size: nat): string
  {
    "bytes */" + Decimal(size)
  }

  /** `end - start + 1` */
  function SpanLength(start: Num, end: Num): Num
  {
    Plus(Minus(end, start), Val(1))
  }

  /** The 206 reply both gateways build for a window. */
  function PartialReply(start: Num, end: Num, size: nat): (r: Reply)
    ensures r.status == 206 && r.body == FileRange(start, end)
    ensures start.Val? && end.Val? && 0 <= start.v && 0 <= end.v
            ==> r.contentRange == Some("bytes " + Decimal(start.v) + "-" + Decimal(end.v) + "/" + Decimal(size))
    ensures start.Val? && end.Val? && start.v <= end.v + 1 ==> r.contentLength == Some(Decimal(end.v - start.v + 1))
    ensures start.Val? && end.Val? && end.v + 1 < start.v ==> r.contentLength == Some("-" + Decimal(start.v - end.v - 1))
    ensures start.NaN? || end.NaN? ==> r.contentLength == Some("NaN")
  {
    Reply(206, Some(ContentRange(start, end, size)), Some(Show(SpanLength(start, end))), FileRange(start, end))
  }

  /** A reply whose body is a plain text message. */
  function TextReply(status: nat, text: string): Reply
  {
    Reply(status, None, None, Text(text))
  }

  /** The header a client sends for bytes `first` to `last`, or from `first`
      to the end of the file when `last` is absent: `bytes=first-last`. */
  function RangeHeader(first: nat, last: Option<nat>): string
  {
    "bytes=" + Decimal(first) + "-" + (if last.Some? then Decimal(last.value) else "")
  }

  /** Stripping `bytes=` and splitting at `-` recovers the two decimal parts
      of a header built by `RangeHeader`. */
  lemma RangeHeaderPieces(first: nat, last: Option<nat>)
    ensures Split(ReplaceFirst(RangeHeader(first, last), "bytes=", ""), '-')
         == [Decimal(first), if last.Some? then Decimal(last.value) else ""]
  {
    var tail := if last.Some? then Decimal(last.value) else "";
    var ranges := Decimal(first) + "-" + tail;
    assert RangeHeader(first, last) == "bytes=" + ranges;
    ReplaceFirstPrefix("bytes=", ranges, "");
    assert "" + ranges == ranges;
    DecimalHasNoDash(first);
    if last.Some? {
      DecimalHasNoDash(last.value);
    }
    SplitAfterPiece(Decimal(first), tail, '-');
    SplitNoSeparator(tail, '-');
  }

  /** The same for the dash-less form `bytes=first`. */
  lemma StartOnlyHeaderPieces(first: nat)
    ensures Split(ReplaceFirst("bytes=" + Decimal(first), "bytes=", ""), '-') == [Decimal(first)]
  {
    ReplaceFirstPrefix("bytes=", Decimal(first), "");
    assert "" + Decimal(first) == Decimal(first);
    DecimalHasNoDash(first);
    SplitNoSeparator(Decimal(first), '-');
  }

  /** Decimal digits never contain a character that is not a digit. */
  lemma DecimalLacks(n: nat, c: char)
    requires !IsDigit(c)
    ensures c !in Decimal(n)
  {
    var d := Decimal(n);
    assert forall i :: 0 <= i < |d| ==> IsDigit(d[i]);
  }

  /** Decimal digits never contain the range separator. */
  lemma DecimalHasNoDash(n: nat)
    ensures '-' !in Decimal(n)
  {
    DecimalLacks(n, '-');
  }

  /** A client that reads `Content-Range: bytes first-last/size` back, by
      dropping `bytes `, splitting at `/` and then at `-`, recovers the
      window's bounds and the file size. */
  lemma ContentRangeReadsBack(first: nat, last: nat, size: nat)
    ensures var pieces := Split(ContentRange(Val(first), Val(last), size)[|"bytes "|..], '/');
            && |pieces| == 2 && Number(pieces[1]) == Val(size)
            && Split(pieces[0], '-') == [Decimal(first), Decimal(last)]
            && Number(Split(pieces[0], '-')[0]) == Val(first)
            && Number(Split(pieces[0], '-')[1]) == Val(last)
  {
    ContentRangeText(first, last, size);
    SizePiece(Decimal(first) + "-" + Decimal(last), size);
    WindowPieces(first, last);
    NumberOfDecimal(first);
    NumberOfDecimal(last);
    NumberOfDecimal(size);
  }

  /** The `Content-Range` text of a numeric window behind `bytes `. */
  lemma ContentRangeText(first: nat, last: nat, size: nat)
    ensures ContentRange(Val(first), Val(last), size)[|"bytes "|..] == Decimal(first) + "-" + Decimal(last) + "/" + Decimal(size)
  {
    ShowNat(first);
    ShowNat(last);
    var text := Decimal(first) + "-" + Decimal(last) + "/" + Decimal(size);
    Regroup("bytes ", Decimal(first), "-", Decimal(last), "/", Decimal(size));
    DropPrefix("bytes ", text);
  }

  /** Splitting `window/size` at `/` when the window has no `/`. */
  lemma SizePiece(window: string, size: nat)
    requires '/' !in window
    ensures Split(window + "/" + Decimal(size), '/') == [window, Decimal(size)]
  {
    DecimalLacks(size, '/');
    SplitAfterPiece(window, Decimal(size), '/');
    SplitNoSeparator(Decimal(size), '/');
  }

  /** Splitting `first-last` at `-`; neither part holds a `/`. */
  lemma WindowPieces(first: nat, last: nat)
    ensures Split(Decimal(first) + "-" + Decimal(last), '-') == [Decimal(first), Decimal(last)]
    ensures '/' !in Decimal(first) + "-" + Decimal(last)
  {
    DecimalLacks(first, '/');
    DecimalLacks(last, '/');
    DecimalHasNoDash(first);
    DecimalHasNoDash(last);
    SplitAfterPiece(Decimal(first), Decimal(last), '-');
    SplitNoSeparator(Decimal(last), '-');
  }

  /** A header built by `RangeHeader`, followed by more text, regrouped. */
  lemma RangeHeaderThen(first: nat, last: nat, tail: string)
    ensures RangeHeader(first, Some(last)) + tail == "bytes=" + (Decimal(first) + ['-'] + (Decimal(last) + tail))
  {
  }
}

=== FILE: js_number.dfy ===
/** JavaScript numbers as the gateway meets them: integers or `NaN`, with the
    conversions `Number(s)` and `parseInt(s, 10)`, the comparisons and
    arithmetic the range code performs, and decimal rendering. */
module JsNumber {
  import opened JsString

  /** A JavaScript number restricted to integers, or `NaN`. */
  datatype Num = Val(v: int) | NaN

  /** `a >= b`: every comparison with `NaN` is false. */
  predicate AtLeast(a: Num, b: int)
  {
    a.Val? && a.v >= b
  }

  /** Truthiness: `0` and `NaN` are falsy. */
  predicate Truthy(a: Num)
  {
    a.Val? && a.v != 0
  }

  /** `a + b`, `NaN` absorbing. */
  function Plus(a: Num, b: Num): Num
  {
    if a.Val? && b.Val? then Val(a.v + b.v) else NaN
  }

  /** `a - b`, `NaN` absorbing. */
  function Minus(a: Num, b: Num): Num
  {
    if a.Val? && b.Val? then Val(a.v - b.v) else NaN
  }

  /** `Math.min(a, b)`, `NaN` if either argument is. */
  function MathMin(a: Num, b: Num): Num
  {
    if a.Val? && b.Val? then Val(if a.v <= b.v then a.v else b.v) else NaN
  }

  predicate IsDigit(c: char)
  {
    '0' <= c <= '9'
  }

  predicate AllDigits(s: string)
  {
    forall i :: 0 <= i < |s| ==> IsDigit(s[i])
  }

  function DigitValue(c: char): nat
    requires IsDigit(c)
  {
    c as int - '0' as int
  }

  function DigitChar(d: nat): (c: char)
    requires d < 10
    ensures IsDigit(c) && DigitValue(c) == d
  {
    ('0' as int + d) as char
  }

  /** The value of a string of decimal digits, most significant first. */
  function DigitsValue(s: string): nat
    requires AllDigits(s)
  {
    if |s| == 0 then 0 else 10 * DigitsValue(s[..|s| - 1]) + DigitValue(s[|s| - 1])
  }

  /** The decimal rendering of a natural number, `String(n)`; reading the
      digits back gives `n`. */
  function Decimal(n: nat): (r: string)
    ensures |r| >= 1 && AllDigits(r)
    ensures DigitsValue(r) == n
  {
    if n < 10 then [DigitChar(n)]
    else
      var r := Decimal(n / 10) + [DigitChar(n % 10)];
      assert r[..|r| - 1] == Decimal(n / 10);
      r
  }

  /** `String(x)` of a number: decimal with a leading `-` when negative, or "NaN". */
  function Show(a: Num): string
  {
    match a
    case NaN => "NaN"
    case Val(v) => if v < 0 then "-" + Decimal(-v) else Decimal(v)
  }

  /** The characters `Number` and `parseInt` skip as white space
      (white space and line terminators of ECMAScript). */
  predicate IsJsSpace(c: char)
  {
    c == '\t' || c == '\n' || c == '\U{0B}' || c == '\U{0C}' || c == '\r' || c == ' '
    || c == '\U{A0}' || c == '\U{1680}' || ('\U{2000}' <= c <= '\U{200A}')
    || c == '\U{2028}' || c == '\U{2029}' || c == '\U{202F}' || c == '\U{205F}'
    || c == '\U{3000}' || c == '\U{FEFF}'
  }

  function TrimStart(s: string): (r: string)
    ensures |r| == 0 || !IsJsSpace(r[0])
  {
    if |s| > 0 && IsJsSpace(s[0]) then TrimStart(s[1..]) else s
  }

  function TrimEnd(s: string): (r: string)
    ensures |r| == 0 || !IsJsSpace(r[|r| - 1])
  {
    if |s| > 0 && IsJsSpace(s[|s| - 1]) then TrimEnd(s[..|s| - 1]) else s
  }

  /** `-1` for a leading minus, `+1` otherwise. */
  function SignOf(c: char): int
  {
    if c == '-' then -1 else 1
  }

  /** `Number(s)` for decimal integer literals: surrounding white space is
      ignored, the empty string is 0, an optional sign may precede the
      digits, and anything else is `NaN`. */
  function Number(s: string): (r: Num)
    ensures '-' !in s && r.Val? ==> r.v >= 0
  {
    var t := Trim(s);
    if |t| == 0 then Val(0)
    else if t[0] == '+' || t[0] == '-' then
      var ds := t[1..];
      if |ds| > 0 && AllDigits(ds) then Val(SignOf(t[0]) * DigitsValue(ds)) else NaN
    else if AllDigits(t) then Val(DigitsValue(t))
    else NaN
  }

  /** Trimming keeps a contiguous part of the string. */
  function Trim(s: string): (r: string)
    ensures forall c :: c in r ==> c in s
  {
    TrimEndSub(TrimStart(s));
    TrimStartSub(s);
    TrimEnd(TrimStart(s))
  }

  lemma {:induction false} TrimStartSub(s: string)
    ensures forall c :: c in TrimStart(s) ==> c in s
    decreases |s|
  {
    if |s| > 0 && IsJsSpace(s[0]) {
      TrimStartSub(s[1..]);
    }
  }

  lemma {:induction false} TrimEndSub(s: string)
    ensures forall c :: c in TrimEnd(s) ==> c in s
    decreases |s|
  {
    if |s| > 0 && IsJsSpace(s[|s| - 1]) {
      TrimEndSub(s[..|s| - 1]);
    }
  }

  /** The longest run of decimal digits at the front of `s`. */
  function DigitPrefix(s: string): (r: string)
    ensures AllDigits(r) && |r| <= |s|
  {
    if |s| > 0 && IsDigit(s[0]) then [s[0]] + DigitPrefix(s[1..]) else ""
  }

  /** `parseInt(s, 10)`: leading white space is skipped, an optional sign is
      read, then the longest digit prefix; no digits at all is `NaN`. */
  function ParseInt(s: string): (r: Num)
    ensures '-' !in s && r.Val? ==> r.v >= 0
  {
    TrimStartSub(s);
    var t := TrimStart(s);
    var u := if |t| > 0 && (t[0] == '+' || t[0] == '-') then t[1..] else t;
    var sign := if |t| > 0 then SignOf(t[0]) else 1;
    var ds := DigitPrefix(u);
    if |ds| == 0 then NaN else Val(sign * DigitsValue(ds))
  }

  /** A string that begins and ends with something other than white space
      is unchanged by trimming. */
  lemma TrimUnpadded(s: string)
    requires |s| >= 1 && !IsJsSpace(s[0]) && !IsJsSpace(s[|s| - 1])
    ensures TrimStart(s) == s && TrimEnd(s) == s && Trim(s) == s
  {
  }

  /** `Number(String(n)) == n` */
  lemma NumberOfDecimal(n: nat)
    ensures Number(Decimal(n)) == Val(n)
  {
    TrimUnpadded(Decimal(n));
  }

  /** White space around the digits is skipped: `Number(" " + String(n) + " ") == n`
      and `parseInt(" " + String(n), 10) == n`. */
  lemma PaddedDecimal(n: nat)
    ensures Number(" " + Decimal(n) + " ") == Val(n)
    ensures ParseInt(" " + Decimal(n)) == Val(n)
  {
    var d := Decimal(n);
    var padded := " " + d + " ";
    assert padded[1..] == d + " ";
    assert (d + " ")[0] == d[0];
    assert TrimStart(padded) == TrimStart(d + " ") == d + " ";
    assert (d + " ")[..|d + " "| - 1] == d;
    assert TrimEnd(d + " ") == TrimEnd(d);
    TrimUnpadded(d);
    NumberOfDecimal(n);
    assert (" " + d)[1..] == d;
    assert TrimStart(" " + d) == TrimStart(d);
    ParseIntOfDecimal(n, "");
    assert d + "" == d;
  }

  /** A digit run ends where the first non-digit begins. */
  lemma {:induction false} DigitPrefixOfDigits(ds: string, rest: string)
    requires AllDigits(ds)
    requires |rest| == 0 || !IsDigit(rest[0])
    ensures DigitPrefix(ds + rest) == ds
    decreases |ds|
  {
    if |ds| > 0 {
      assert (ds + rest)[1..] == ds[1..] + rest;
      DigitPrefixOfDigits(ds[1..], rest);
      assert [ds[0]] + ds[1..] == ds;
    } else {
      assert ds + rest == rest;
    }
  }

  /** `parseInt(String(n) + rest, 10) == n` when `rest` does not continue the
      digits. */
  lemma ParseIntOfDecimal(n: nat, rest: string)
    requires |rest| == 0 || !IsDigit(rest[0])
    ensures ParseInt(Decimal(n) + rest) == Val(n)
  {
    var s := Decimal(n) + rest;
    assert s[0] == Decimal(n)[0];
    assert TrimStart(s) == s;
    DigitPrefixOfDigits(Decimal(n), rest);
  }

  /** Trimming the end never reaches a character that is not white space. */
  lemma {:induction false} TrimEndKeeps(s: string, i: nat)
    requires i < |s| && !IsJsSpace(s[i])
    ensures i < |TrimEnd(s)| && TrimEnd(s)[i] == s[i]
    decreases |s|
  {
    if |s| > 0 && IsJsSpace(s[|s| - 1]) {
      TrimEndKeeps(s[..|s| - 1], i);
    }
  }

  /** A comma after the digits makes the whole string `NaN` for `Number`,
      where `parseInt` would stop at it. */
  lemma NumberRejectsComma(n: nat, rest: string)
    ensures Number(Decimal(n) + [','] + rest) == NaN
  {
    var s := Decimal(n) + [','] + rest;
    var k := |Decimal(n)|;
    assert s[0] == Decimal(n)[0];
    assert TrimStart(s) == s;
    assert s[k] == ',';
    TrimEndKeeps(s, k);
    assert !AllDigits(Trim(s)) by {
      assert Trim(s)[k] == ',';
    }
  }

  /** A word (a string starting with a lower-case letter) is `NaN` for both
      `Number` and `parseInt`. */
  lemma WordIsNaN(s: string)
    requires |s| > 0 && 'a' <= s[0] <= 'z'
    ensures Number(s) == NaN && ParseInt(s) == NaN
  {
    assert TrimStart(s) == s;
    TrimEndKeeps(s, 0);
    assert Trim(s)[0] == s[0];
  }

  /** `parseInt(String(n), 10) == n` */
  lemma ParseIntDecimal(n: nat)
    ensures ParseInt(Decimal(n)) == Val(n)
  {
    ParseIntOfDecimal(n, "");
    assert Decimal(n) + "" == Decimal(n);
  }

  /** Appending a digit to a positive number appends its character. */
  lemma DecimalAppend(n: nat, d: nat)
    requires n > 0 && d < 10
    ensures Decimal(10 * n + d) == Decimal(n) + [DigitChar(d)]
  {
    assert (10 * n + d) / 10 == n && (10 * n + d) % 10 == d;
  }

  /** `Show` renders a natural number as its decimal digits. */
  lemma ShowNat(n: nat)
    ensures Show(Val(n)) == Decimal(n)
  {
  }
}

=== FILE: js_string.dfy ===
/** The JavaScript string operations the gateway relies on, over `string` as
    a sequence of characters. Case-insensitivity and upper-casing are modelled
    on ASCII letters only. */
module JsString {

  /** `s.startsWith(p)` */
  predicate StartsWith(s: string, p: string)
  {
    |p| <= |s| && s[..|p|] == p
  }

  /** `p` occurs in `s` starting at index `i`. */
  ghost predicate OccursAt(s: string, p: string, i: int)
  {
    0 <= i && i + |p| <= |s| && s[i..i + |p|] == p
  }

  /** `s.includes(p)`, scanning left to right. */
  predicate Includes(s: string, p: string)
    decreases |s|
  {
    StartsWith(s, p) || (|s| > 0 && Includes(s[1..], p))
  }

  /** The scanning definition of `includes` agrees with "some occurrence exists". */
  lemma IncludesIffOccurs(s: string, p: string)
    ensures Includes(s, p) <==> exists i :: OccursAt(s, p, i)
  {
    if Includes(s, p) {
      var i := OccurrenceOf(s, p);
    }
    if exists i :: OccursAt(s, p, i) {
      var i :| OccursAt(s, p, i);
      IncludesOccurrence(s, p, i);
    }
  }

  /** Where a scan that succeeds found the pattern. */
  lemma {:induction false} OccurrenceOf(s: string, p: string) returns (i: int)
    requires Includes(s, p)
    ensures OccursAt(s, p, i)
    decreases |s|
  {
    if StartsWith(s, p) {
      i := 0;
    } else {
      var j := OccurrenceOf(s[1..], p);
      i := j + 1;
      assert s[i..i + |p|] == s[1..][j..j + |p|];
    }
  }

  /** The scan finds every occurrence. */
  lemma {:induction false} IncludesOccurrence(s: string, p: string, i: int)
    requires OccursAt(s, p, i)
    ensures Includes(s, p)
    decreases i
  {
    if i > 0 {
      assert s[1..][i - 1..i - 1 + |p|] == s[i..i + |p|];
      IncludesOccurrence(s[1..], p, i - 1);
    }
  }

  /** A pattern holding a character the subject lacks never occurs in it. */
  lemma {:induction false} NotIncludedWhenCharMissing(s: string, p: string, c: char)
    requires c in p && c !in s
    ensures !Includes(s, p)
    decreases |s|
  {
    if |s| > 0 {
      NotIncludedWhenCharMissing(s[1..], p, c);
    }
  }

  /** A prefix always occurs. */
  lemma IncludesPrefix(s: string, p: string, rest: string)
    ensures Includes(p + rest, p)
  {
    assert (p + rest)[..|p|] == p;
  }

  /** An occurrence stays an occurrence behind any prefix. */
  lemma {:induction false} IncludesAfter(before: string, s: string, p: string)
    requires Includes(s, p)
    ensures Includes(before + s, p)
    decreases |before|
  {
    if |before| > 0 {
      IncludesAfter(before[1..], s, p);
      assert (before + s)[1..] == before[1..] + s;
    } else {
      assert before + s == s;
    }
  }

  /** `s.replace(/pat/, rep)` for a regular expression that matches only the
      literal text `pat`: the first occurrence is replaced, nothing else. */
  function ReplaceFirst(s: string, pat: string, rep: string): (r: string)
    decreases |s|
  {
    if StartsWith(s, pat) then rep + s[|pat|..]
    else if |s| == 0 then s
    else [s[0]] + ReplaceFirst(s[1..], pat, rep)
  }

  /** Replacing in a string that does not contain the pattern changes nothing. */
  lemma {:induction false} ReplaceFirstAbsent(s: string, pat: string, rep: string)
    requires !Includes(s, pat)
    ensures ReplaceFirst(s, pat, rep) == s
    decreases |s|
  {
    if |s| > 0 {
      ReplaceFirstAbsent(s[1..], pat, rep);
    }
  }

  /** Replacing a pattern the string begins with removes exactly that prefix. */
  lemma ReplaceFirstPrefix(pat: string, rest: string, rep: string)
    ensures ReplaceFirst(pat + rest, pat, rep) == rep + rest
  {
    assert (pat + rest)[..|pat|] == pat;
    assert (pat + rest)[|pat|..] == rest;
  }

  /** The first occurrence is replaced wherever it starts: text before it
      that holds no occurrence is kept, and so is everything after it. */
  lemma {:induction false} ReplaceFirstAfter(pre: string, pat: string, rest: string, rep: string)
    requires forall i :: 0 <= i < |pre| ==> !OccursAt(pre + pat + rest, pat, i)
    ensures ReplaceFirst(pre + pat + rest, pat, rep) == pre + rep + rest
    decreases |pre|
  {
    var s := pre + pat + rest;
    if |pre| == 0 {
      assert s == pat + rest;
      ReplaceFirstPrefix(pat, rest, rep);
    } else {
      assert !OccursAt(s, pat, 0);
      assert !StartsWith(s, pat);
      var t := pre[1..] + pat + rest;
      assert s[1..] == t;
      forall i | 0 <= i < |pre[1..]| ensures !OccursAt(t, pat, i) {
        assert !OccursAt(s, pat, i + 1);
        if i + |pat| <= |t| {
          assert t[i..i + |pat|] == s[i + 1..i + 1 + |pat|];
        }
      }
      ReplaceFirstAfter(pre[1..], pat, rest, rep);
      assert [s[0]] + (pre[1..] + rep + rest) == pre + rep + rest;
    }
  }

  /** `pieces.join(sep)` */
  function Join(pieces: seq<string>, sep: char): string
  {
    if |pieces| == 0 then ""
    else if |pieces| == 1 then pieces[0]
    else pieces[0] + [sep] + Join(pieces[1..], sep)
  }

  /** `s.split(sep)` for a one-character separator: the text between
      successive separators, so there is always at least one piece. */
  function Split(s: string, sep: char): (r: seq<string>)
    ensures |r| >= 1
    ensures forall k :: 0 <= k < |r| ==> sep !in r[k]
    ensures Join(r, sep) == s
    decreases |s|
  {
    if |s| == 0 then [""]
    else
      var rest := Split(s[1..], sep);
      if s[0] == sep then
        assert s == [] + [sep] + s[1..];
        [""] + rest
      else
        var r := [[s[0]] + rest[0]] + rest[1..];
        assert r[1..] == rest[1..];
        r
  }

  /** Splitting undoes joining when no piece holds the separator. */
  lemma {:induction false} SplitJoin(pieces: seq<string>, sep: char)
    requires |pieces| >= 1
    requires forall k :: 0 <= k < |pieces| ==> sep !in pieces[k]
    ensures Split(Join(pieces, sep), sep) == pieces
    decreases |pieces|
  {
    if |pieces| == 1 {
      SplitNoSeparator(pieces[0], sep);
    } else {
      SplitJoin(pieces[1..], sep);
      SplitAfterPiece(pieces[0], Join(pieces[1..], sep), sep);
      assert pieces == [pieces[0]] + pieces[1..];
    }
  }

  /** A string without the separator splits into itself. */
  lemma {:induction false} SplitNoSeparator(s: string, sep: char)
    requires sep !in s
    ensures Split(s, sep) == [s]
    decreases |s|
  {
    if |s| > 0 {
      SplitNoSeparator(s[1..], sep);
      assert s == [s[0]] + s[1..];
    }
  }

  /** The first piece ends at the first separator. */
  lemma {:induction false} SplitAfterPiece(a: string, b: string, sep: char)
    requires sep !in a
    ensures Split(a + [sep] + b, sep) == [a] + Split(b, sep)
    decreases |a|
  {
    var s := a + [sep] + b;
    if |a| == 0 {
      assert s[1..] == b;
    } else {
      assert s[1..] == a[1..] + [sep] + b;
      SplitAfterPiece(a[1..], b, sep);
      assert [a[0]] + a[1..] == a;
    }
  }

  /** The first piece of a split is a prefix of the string. */
  lemma SplitHeadIsPrefix(s: string, sep: char)
    ensures var head := Split(s, sep)[0]; |head| <= |s| && s[..|head|] == head
  {
    var r := Split(s, sep);
    if |r| > 1 {
      assert Join(r, sep) == r[0] + [sep] + Join(r[1..], sep);
      assert (r[0] + [sep] + Join(r[1..], sep))[..|r[0]|] == r[0];
    }
  }

  /** A character other than the separator joins the first piece. */
  lemma SplitCons(c: char, s: string, sep: char)
    requires c != sep
    ensures Split([c] + s, sep) == [[c] + Split(s, sep)[0]] + Split(s, sep)[1..]
  {
    assert ([c] + s)[1..] == s;
  }

  /** Concatenation regrouped. */
  lemma AppendAssoc<T>(a: seq<T>, b: seq<T>, c: seq<T>)
    ensures a + (b + c) == a + b + c
  {
  }

  /** A five-part suffix regrouped behind its first part. */
  lemma Regroup<T>(a: seq<T>, b: seq<T>, c: seq<T>, d: seq<T>, e: seq<T>, f: seq<T>)
    ensures a + b + c + d + e + f == a + (b + c + d + e + f)
  {
  }

  /** Dropping a prefix leaves what followed it. */
  lemma DropPrefix<T>(a: seq<T>, b: seq<T>)
    ensures (a + b)[|a|..] == b
  {
  }

  /** The head and tail of a sequence built from them. */
  lemma HeadAndTail<T>(r: seq<T>, head: T, tail: seq<T>)
    requires r == [head] + tail
    ensures r[0] == head && r[1..] == tail
  {
  }

  /** Putting back the first character of a non-empty string before a suffix. */
  lemma ConsAppend<T>(a: seq<T>, t: seq<T>)
    requires |a| > 0
    ensures [a[0]] + (a[1..] + t) == a + t
  {
  }

  /** Text before the first separator joins the first piece. */
  lemma {:induction false} SplitPrepend(a: string, b: string, sep: char)
    requires sep !in a
    ensures Split(a + b, sep) == [a + Split(b, sep)[0]] + Split(b, sep)[1..]
    decreases |a|
  {
    var pieces := Split(b, sep);
    if |a| == 0 {
      assert a + b == b;
      assert a + pieces[0] == pieces[0];
      assert pieces == [pieces[0]] + pieces[1..];
    } else {
      SplitPrepend(a[1..], b, sep);
      var rest := Split(a[1..] + b, sep);
      ConsAppend(a, b);
      HeadAndTail(rest, a[1..] + pieces[0], pieces[1..]);
      SplitCons(a[0], a[1..] + b, sep);
      ConsAppend(a, pieces[0]);
    }
  }

  /** ASCII lower-casing of one character. */
  function AsciiLower(c: char): char
  {
    if 'A' <= c <= 'Z' then (c as int + 32) as char else c
  }

  /** ASCII upper-casing of one character. */
  function AsciiUpper(c: char): char
  {
    if 'a' <= c <= 'z' then (c as int - 32) as char else c
  }

  /** `s.toUpperCase()` on ASCII letters. */
  function ToUpper(s: string): (r: string)
    ensures |r| == |s|
    ensures forall i :: 0 <= i < |s| ==> r[i] == AsciiUpper(s[i])
  {
    if |s| == 0 then "" else [AsciiUpper(s[0])] + ToUpper(s[1..])
  }

  /** Two characters a case-insensitive regular expression treats as equal. */
  predicate SameLetter(a: char, b: char)
  {
    AsciiLower(a) == AsciiLower(b)
  }

  /** Two strings equal up to ASCII case. */
  predicate EqualsIgnoreCase(a: string, b: string)
  {
    |a| == |b| && forall i :: 0 <= i < |a| ==> SameLetter(a[i], b[i])
  }

  /** `s` ends with `p` up to ASCII case, as `/p$/i` tests it. */
  predicate EndsWithIgnoreCase(s: string, p: string)
  {
    |p| <= |s| && EqualsIgnoreCase(s[|s| - |p|..], p)
  }

  /** Upper-casing does not change which letter a character is. */
  lemma UpperKeepsLetter(c: char)
    ensures SameLetter(AsciiUpper(c), c)
  {
  }

  /** A case-insensitive suffix test gives the same answer on the upper-cased string. */
  lemma EndsWithIgnoreCaseUpper(s: string, p: string)
    ensures EndsWithIgnoreCase(s, p) <==> EndsWithIgnoreCase(ToUpper(s), p)
  {
    if |p| <= |s| {
      var a := s[|s| - |p|..];
      var b := ToUpper(s)[|s| - |p|..];
      forall i | 0 <= i < |p|
        ensures SameLetter(a[i], p[i]) <==> SameLetter(b[i], p[i])
      {
        var c := s[|s| - |p| + i];
        assert a[i] == c && b[i] == AsciiUpper(c);
        UpperKeepsLetter(c);
      }
    }
  }
}

=== FILE: magnet.dfy ===
/** main.ts magnet handling: the `magnet:?` prefix test, the info hash taken
    from the first `xt=urn:btih:` parameter, and the blocklist. */
module Magnet {
  import opened Wrappers
  import opened JsString

  const MAGNET_PREFIX: string := "magnet:?"

  /** The parameter text the regular expression looks for, matched ignoring case. */
  const BTIH: string := "xt=urn:btih:"

  /** `BLOCKED_HASHES` */
  const BLOCKED_HASHES: set<string> := {"HASH_PROHIBIDO_1", "HASH_PROHIBIDO_2"}

  /** The message of the error thrown for a blocked hash. */
  const BLOCKED_MESSAGE: string := "Contenido " + "bloqueado por " + "derechos de autor"

  /** `magnet?.startsWith("magnet:?")`, with a missing query parameter as None. */
  predicate IsValidMagnet(magnet: Option<string>)
  {
    magnet.Some? && StartsWith(magnet.value, MAGNET_PREFIX)
  }

  /** `/xt=urn:btih:([^&]+)/i` matches starting at `i`: the parameter name in
      any case, followed by at least one character other than `&`. */
  predicate MatchesAt(s: string, i: int)
  {
    0 <= i && i + |BTIH| < |s| && EqualsIgnoreCase(s[i..i + |BTIH|], BTIH) && s[i + |BTIH|] != '&'
  }

  /** The greedy capture `[^&]+`: everything up to the next `&`. */
  function UpToAmpersand(s: string): (r: string)
    ensures |r| <= |s| && s[..|r|] == r
    ensures '&' !in r
    ensures |r| == |s| || s[|r|] == '&'
  {
    if |s| == 0 || s[0] == '&' then "" else [s[0]] + UpToAmpersand(s[1..])
  }

  /** The leftmost match position at or after `from`. */
  function FirstMatch(s: string, from: nat): (r: Option<nat>)
    ensures r.Some? ==> from <= r.value && MatchesAt(s, r.value)
    ensures r.Some? ==> forall j :: from <= j < r.value ==> !MatchesAt(s, j)
    ensures r.None? ==> forall j :: from <= j ==> !MatchesAt(s, j)
    decreases |s| - from
  {
    if from + |BTIH| >= |s| then None
    else if MatchesAt(s, from) then Some(from)
    else FirstMatch(s, from + 1)
  }

  /** `magnet.match(/xt=urn:btih:([^&]+)/i)?.[1]?.toUpperCase()` */
  function InfoHash(magnet: string): (r: Option<string>)
    ensures r.None? <==> forall i :: !MatchesAt(magnet, i)
    ensures r.Some? ==> |r.value| >= 1 && '&' !in r.value
    ensures r.Some? ==> exists i :: && MatchesAt(magnet, i)
                                    && (forall j :: 0 <= j < i ==> !MatchesAt(magnet, j))
                                    && r.value == ToUpper(UpToAmpersand(magnet[i + |BTIH|..]))
  {
    match FirstMatch(magnet, 0)
    case None => None
    case Some(i) =>
      assert MatchesAt(magnet, i) && forall j :: 0 <= j < i ==> !MatchesAt(magnet, j);
      var captured := UpToAmpersand(magnet[i + |BTIH|..]);
      assert captured[0] == magnet[i + |BTIH|];
      assert forall c :: c in ToUpper(captured) ==> c == '&' ==> false by {
        forall k | 0 <= k < |captured| ensures ToUpper(captured)[k] != '&' {
          assert captured[k] != '&';
        }
      }
      Some(ToUpper(captured))
  }

  /** `infoHash && BLOCKED_HASHES.has(infoHash)` */
  predicate IsBlocked(magnet: string)
  {
    var hash := InfoHash(magnet);
    hash.Some? && hash.value in BLOCKED_HASHES
  }

  /** A magnet without an `xt=urn:btih:` parameter is never blocked. */
  lemma NoHashNeverBlocked(magnet: string)
    requires forall i :: !MatchesAt(magnet, i)
    ensures !IsBlocked(magnet)
  {
  }

  /** No match can start inside the `magnet:?` prefix: none of its
      characters is an `x`. */
  lemma NoMatchInPrefix(s: string)
    requires StartsWith(s, MAGNET_PREFIX)
    ensures forall j :: 0 <= j < |MAGNET_PREFIX| ==> !MatchesAt(s, j)
  {
    forall j | 0 <= j < |MAGNET_PREFIX| ensures !MatchesAt(s, j) {
      assert s[j] == MAGNET_PREFIX[j];
      assert s[j] != 'x' && s[j] != 'X';
    }
  }

  /** The first match is the one right after the prefix. */
  lemma FirstMatchAfterPrefix(s: string)
    requires StartsWith(s, MAGNET_PREFIX) && MatchesAt(s, |MAGNET_PREFIX|)
    ensures FirstMatch(s, 0) == Some(|MAGNET_PREFIX|)
  {
    NoMatchInPrefix(s);
  }

  /** After the prefix, the parameter name matches when a hash follows it. */
  lemma MatchAfterPrefix(tail: string)
    requires |tail| >= 1 && tail[0] != '&'
    ensures var s := MAGNET_PREFIX + (BTIH + tail);
            StartsWith(s, MAGNET_PREFIX) && MatchesAt(s, |MAGNET_PREFIX|)
            && s[|MAGNET_PREFIX| + |BTIH|..] == tail
  {
    var s := MAGNET_PREFIX + (BTIH + tail);
    var at := |MAGNET_PREFIX|;
    assert s[..at] == MAGNET_PREFIX;
    assert s[at..at + |BTIH|] == BTIH;
    assert s[at + |BTIH|..] == tail;
  }

  /** `magnet:?xt=urn:btih:HASH` followed by nothing or by further `&`
      parameters has the upper-cased `HASH` as its info hash. */
  lemma StandardMagnetHash(hash: string, rest: string)
    requires |hash| >= 1 && '&' !in hash
    requires |rest| == 0 || rest[0] == '&'
    ensures InfoHash(MAGNET_PREFIX + (BTIH + (hash + rest))) == Some(ToUpper(hash))
  {
    var s := MAGNET_PREFIX + (BTIH + (hash + rest));
    MatchAfterPrefix(hash + rest);
    FirstMatchAfterPrefix(s);
    CaptureWholeHash(hash, rest);
  }

  lemma {:induction false} CaptureWholeHash(hash: string, rest: string)
    requires '&' !in hash
    requires |rest| == 0 || rest[0] == '&'
    ensures UpToAmpersand(hash + rest) == hash
    decreases |hash|
  {
    if |hash| == 0 {
      assert hash + rest == rest;
    } else {
      assert (hash + rest)[1..] == hash[1..] + rest;
      CaptureWholeHash(hash[1..], rest);
      assert [hash[0]] + hash[1..] == hash;
    }
  }

  /** The parameter name in capitals, as the `/i` flag allows it. */
  const UPPER_BTIH: string := "XT=URN:" + "BTIH:"

  /** `/xt=urn:btih:/i` matches the parameter name written in capitals. */
  lemma UpperNameMatches()
    ensures EqualsIgnoreCase(UPPER_BTIH, BTIH)
  {
    assert |UPPER_BTIH| == |BTIH|;
    forall i | 0 <= i < |BTIH| ensures SameLetter(UPPER_BTIH[i], BTIH[i]) {
      UpperKeepsLetter(BTIH[i]);
      assert UPPER_BTIH[i] == AsciiUpper(BTIH[i]);
    }
  }

  /** After the prefix, the parameter name in any case matches when a hash
      follows it. */
  lemma AnyCaseMatchAfterPrefix(name: string, tail: string)
    requires EqualsIgnoreCase(name, BTIH)
    requires |tail| >= 1 && tail[0] != '&'
    ensures var s := MAGNET_PREFIX + (name + tail);
            StartsWith(s, MAGNET_PREFIX) && MatchesAt(s, |MAGNET_PREFIX|)
            && s[|MAGNET_PREFIX| + |BTIH|..] == tail
  {
    var s := MAGNET_PREFIX + (name + tail);
    var at := |MAGNET_PREFIX|;
    assert s[..at] == MAGNET_PREFIX;
    assert s[at..at + |BTIH|] == name;
    assert s[at + |BTIH|..] == tail;
  }

  /** The info hash of a standard magnet whose parameter name is written in
      any case. */
  lemma AnyCaseMagnetHash(name: string, hash: string, rest: string)
    requires EqualsIgnoreCase(name, BTIH)
    requires |hash| >= 1 && '&' !in hash
    requires |rest| == 0 || rest[0] == '&'
    ensures InfoHash(MAGNET_PREFIX + (name + (hash + rest))) == Some(ToUpper(hash))
  {
    var s := MAGNET_PREFIX + (name + (hash + rest));
    AnyCaseMatchAfterPrefix(name, hash + rest);
    FirstMatchAfterPrefix(s);
    CaptureWholeHash(hash, rest);
  }

  /** The parameter name is matched ignoring case: `XT=URN:BTIH:HASH` yields
      the same info hash as `xt=urn:btih:HASH`. */
  lemma ParameterNameIgnoresCase(hash: string, rest: string)
    requires |hash| >= 1 && '&' !in hash
    requires |rest| == 0 || rest[0] == '&'
    ensures InfoHash(MAGNET_PREFIX + (UPPER_BTIH + (hash + rest)))
         == InfoHash(MAGNET_PREFIX + (BTIH + (hash + rest)))
  {
    UpperNameMatches();
    AnyCaseMagnetHash(UPPER_BTIH, hash, rest);
    StandardMagnetHash(hash, rest);
  }

  /** The blocklist ignores the case of the hash in the magnet. */
  lemma BlockedIgnoringCase(hash: string)
    requires |hash| >= 1 && '&' !in hash && ToUpper(hash) in BLOCKED_HASHES
    ensures IsBlocked(MAGNET_PREFIX + (BTIH + hash))
  {
    StandardMagnetHash(hash, "");
    assert hash + "" == hash;
  }
}

=== FILE: range_examples.dfy ===
/** Three concrete range requests, proved of both models: `bytes=0-99` on
    1000 bytes, no header on 1000000 bytes and `bytes=999999-1000000` on
    1000000 bytes. Each is reached through the general lemmas about
    well-formed headers and a separate lemma for the header and reply texts. */
module RangeExamples {
  import opened Wrappers
  import opened JsNumber
  import opened Http
  import ExpressRange
  import DenoRange

  /** The header text of the first example. */
  lemma FirstHundredHeader()
    ensures RangeHeader(0, Some(99)) == "bytes=0-99"
  {
    assert Decimal(0) == "0";
    assert Decimal(99) == "99";
  }

  /** The header text of the last example. */
  lemma PastEndHeader()
    ensures RangeHeader(999999, Some(1000000)) == "bytes=999999-1000000"
  {
    LastByteText();
    MillionText();
  }

  /** `String(999999)` */
  lemma LastByteText()
    ensures Decimal(999999) == "999999"
  {
    DecimalAppend(9, 9);
    DecimalAppend(99, 9);
    DecimalAppend(999, 9);
    DecimalAppend(9999, 9);
    DecimalAppend(99999, 9);
  }

  /** `String(1000000)` */
  lemma MillionText()
    ensures Decimal(1000000) == "1000000"
  {
    DecimalAppend(1, 0);
    DecimalAppend(10, 0);
    DecimalAppend(100, 0);
    DecimalAppend(1000, 0);
    DecimalAppend(10000, 0);
    DecimalAppend(100000, 0);
  }

  /** The `Content-Range` of a 416 reply on 1000000 bytes. */
  lemma UnsatisfiedMillion()
    ensures UnsatisfiedRange(1000000) == "bytes */1000000"
  {
    MillionText();
  }

  /** `String(100)`, the length of the first example's window. */
  lemma HundredText()
    ensures Decimal(100) == "100"
  {
    DecimalAppend(1, 0);
    DecimalAppend(10, 0);
  }

  /** The `Content-Range` of `bytes=0-99` on 1000 bytes. */
  lemma WindowText()
    ensures ContentRange(Val(0), Val(99), 1000) == "bytes 0-99/1000"
  {
    DecimalAppend(9, 9);
    DecimalAppend(1, 0);
    DecimalAppend(10, 0);
    DecimalAppend(100, 0);
  }

  /** Both servers answer `bytes=0-99` on 1000 bytes with the same partial reply. */
  lemma FirstHundredReplies()
    ensures ExpressRange.Respond(ExpressRange.Negotiate(Some(RangeHeader(0, Some(99))), 1000), 1000)
         == PartialReply(Val(0), Val(99), 1000)
    ensures DenoRange.Respond(DenoRange.Negotiate(Some(RangeHeader(0, Some(99))), 1000), 1000)
         == PartialReply(Val(0), Val(99), 1000)
  {
    ExpressRange.ExplicitRange(0, 99, 1000);
    DenoRange.ExplicitRange(0, 99, 1000);
  }

  /** `Range: bytes=0-99` on 1000 bytes: 206, `Content-Range: bytes 0-99/1000`,
      `Content-Length: 100`, from either server. */
  lemma FirstHundredBytes()
    ensures var r := ExpressRange.Respond(ExpressRange.Negotiate(Some("bytes=0-99"), 1000), 1000);
            r.status == 206 && r.contentRange == Some("bytes 0-99/1000") && r.contentLength == Some("100")
    ensures var r := DenoRange.Respond(DenoRange.Negotiate(Some("bytes=0-99"), 1000), 1000);
            r.status == 206 && r.contentRange == Some("bytes 0-99/1000") && r.contentLength == Some("100")
  {
    FirstHundredHeader();
    FirstHundredReplies();
    WindowText();
    HundredText();
  }

  /** No `Range` header on 1000000 bytes: 200 with `Content-Length: 1000000`. */
  lemma WholeMillion()
    ensures var r := ExpressRange.Respond(ExpressRange.Negotiate(None, 1000000), 1000000);
            r.status == 200 && r.contentLength == Some("1000000")
    ensures var r := DenoRange.Respond(DenoRange.Negotiate(None, 1000000), 1000000);
            r.status == 200 && r.contentLength == Some("1000000")
  {
    MillionText();
  }

  /** Both servers refuse `bytes=999999-1000000` on 1000000 bytes. */
  lemma PastEndRefused()
    ensures ExpressRange.Negotiate(Some(RangeHeader(999999, Some(1000000))), 1000000) == Unsatisfiable
    ensures DenoRange.Negotiate(Some(RangeHeader(999999, Some(1000000))), 1000000) == Unsatisfiable
  {
    ExpressRange.ExplicitRange(999999, 1000000, 1000000);
    DenoRange.ExplicitRange(999999, 1000000, 1000000);
  }

  /** `Range: bytes=999999-1000000` on 1000000 bytes: 416 with
      `Content-Range: bytes *\/1000000` and no body. server.js keeps the
      `Content-Length` it set to the file size; main.ts sends none. */
  lemma EndPastFile()
    ensures var r := ExpressRange.Respond(ExpressRange.Negotiate(Some("bytes=999999-1000000"), 1000000), 1000000);
            r.status == 416 && r.contentRange == Some("bytes */1000000") && r.body == NoBody
            && r.contentLength == Some("1000000")
    ensures var r := DenoRange.Respond(DenoRange.Negotiate(Some("bytes=999999-1000000"), 1000000), 1000000);
            r.status == 416 && r.contentRange == Some("bytes */1000000") && r.body == NoBody
            && r.contentLength.None?
  {
    PastEndHeader();
    PastEndRefused();
    MillionText();
    UnsatisfiedMillion();
  }
}

=== FILE: range_variants.dfy ===
/** Where the two servers' range handling agrees and where it parts: both
    split the header the same way, but server.js converts with `Number`,
    tests before defaulting and caps the default at a chunk, while main.ts
    converts with `parseInt`, defaults before testing and serves to the end. */
module RangeVariants {
  import opened Wrappers
  import opened JsString
  import opened JsNumber
  import opened Http
  import ExpressRange
  import DenoRange

  /** server.js reads the same two pieces as main.ts, through `Number`. */
  lemma SamePieces(header: string)
    ensures var (startStr, endStr) := DenoRange.Parts(header);
            ExpressRange.Parts(header) == (Number(startStr), if endStr.Some? then Some(Number(endStr.value)) else None)
  {
  }

  /** Both answer a request without a `Range` header with the whole file. */
  lemma AgreeWithoutHeader(size: nat)
    ensures ExpressRange.Negotiate(None, size) == DenoRange.Negotiate(None, size) == NoRange
  {
  }

  /** Both take `bytes=first-last` literally when the end is not 0. */
  lemma AgreeOnExplicitRange(first: nat, last: nat, size: nat)
    requires last != 0
    ensures ExpressRange.Negotiate(Some(RangeHeader(first, Some(last))), size)
         == DenoRange.Negotiate(Some(RangeHeader(first, Some(last))), size)
  {
    ExpressRange.ExplicitRange(first, last, size);
    DenoRange.ExplicitRange(first, last, size);
  }

  /** An explicit end of 0 is "no end" to server.js, which serves a chunk
      from the start, and byte 0 to main.ts, which serves a window ending at
      byte 0 (reversed when the start is past it). */
  lemma ZeroEndDiffers(first: nat, size: nat)
    requires first < size && 1 < size
    ensures ExpressRange.Negotiate(Some(RangeHeader(first, Some(0))), size)
         == Window(Val(first), ExpressRange.ChunkEnd(Val(first), size))
    ensures DenoRange.Negotiate(Some(RangeHeader(first, Some(0))), size) == Window(Val(first), Val(0))
    ensures ExpressRange.ChunkEnd(Val(first), size).v > 0
  {
    ExpressRange.ExplicitRange(first, 0, size);
    DenoRange.ExplicitRange(first, 0, size);
  }

  /** `bytes=first-` on a file longer than a chunk past `first`: server.js
      stops after `CHUNK_SIZE` bytes, main.ts serves to the last byte. */
  lemma OpenEndDiffers(first: nat, size: nat)
    requires first + ExpressRange.CHUNK_SIZE < size - 1
    ensures ExpressRange.Negotiate(Some(RangeHeader(first, None)), size)
         == Window(Val(first), Val(first + ExpressRange.CHUNK_SIZE))
    ensures DenoRange.Negotiate(Some(RangeHeader(first, None)), size) == Window(Val(first), Val(size - 1))
  {
    ExpressRange.OpenEndedRange(first, size);
    DenoRange.OpenEndedRange(first, size);
  }

  /** The pieces of `bytes=first-last,rest` (a multi-range request when
      `rest` is another range). */
  lemma MultiRangePieces(first: nat, last: nat, rest: string)
    ensures DenoRange.Parts(RangeHeader(first, Some(last)) + ([','] + rest))
         == (Decimal(first), Some(Decimal(last) + ([','] + Split(rest, '-')[0])))
  {
    DenoRange.PartsWithTail(first, last, [','] + rest);
    assert ',' != '-';
    SplitPrepend([','], rest, '-');
  }

  /** server.js reads the start of `bytes=first-last,rest` as `first` and
      its end as `NaN`. */
  lemma MultiRangeExpressParts(first: nat, last: nat, rest: string)
    ensures ExpressRange.Parts(RangeHeader(first, Some(last)) + ([','] + rest)) == (Val(first), Some(NaN))
  {
    var header := RangeHeader(first, Some(last)) + ([','] + rest);
    MultiRangePieces(first, last, rest);
    SamePieces(header);
    NumberOfDecimal(first);
    var tail := Split(rest, '-')[0];
    NumberRejectsComma(last, tail);
    AppendAssoc(Decimal(last), [','], tail);
  }

  /** server.js reads the end of a multi-range request as `NaN`, which
      passes the 416 test and falls back to a chunk from `first`. */
  lemma MultiRangeExpress(first: nat, last: nat, rest: string, size: nat)
    ensures ExpressRange.Negotiate(Some(RangeHeader(first, Some(last)) + ([','] + rest)), size)
         == if first >= size then Unsatisfiable else Window(Val(first), ExpressRange.ChunkEnd(Val(first), size))
  {
    var header := RangeHeader(first, Some(last)) + ([','] + rest);
    ExpressRange.NegotiateHeader(header, size);
    MultiRangeExpressParts(first, last, rest);
  }

  /** A multi-range request `bytes=first-last,rest`: main.ts ignores
      everything after the first range's end, server.js reads the end as
      `NaN` and serves a chunk from `first` instead. */
  lemma MultiRangeDiffers(first: nat, last: nat, rest: string, size: nat)
    ensures ExpressRange.Negotiate(Some(RangeHeader(first, Some(last)) + ([','] + rest)), size)
         == if first >= size then Unsatisfiable else Window(Val(first), ExpressRange.ChunkEnd(Val(first), size))
    ensures DenoRange.Negotiate(Some(RangeHeader(first, Some(last)) + ([','] + rest)), size)
         == DenoRange.Negotiate(Some(RangeHeader(first, Some(last))), size)
  {
    MultiRangeExpress(first, last, rest, size);
    DenoRange.TrailingTextIgnored(first, last, [','] + rest, size);
  }

  /** The pieces of `bytes=first-word` for a word without a dash. */
  lemma WordEndPieces(first: nat, word: string)
    requires '-' !in word
    ensures DenoRange.Parts("bytes=" + Decimal(first) + "-" + word) == (Decimal(first), Some(word))
  {
    DecimalHasNoDash(first);
    DenoRange.PartsAfterPrefix(Decimal(first), word);
    AppendAssoc("bytes=", Decimal(first), "-");
    AppendAssoc("bytes=", Decimal(first) + "-", word);
    SplitNoSeparator(word, '-');
  }

  /** server.js reads `bytes=first-word` as `first` and a `NaN` end. */
  lemma WordEndExpressParts(first: nat, word: string)
    requires '-' !in word && |word| > 0 && 'a' <= word[0] <= 'z'
    ensures ExpressRange.Parts("bytes=" + Decimal(first) + "-" + word) == (Val(first), Some(NaN))
  {
    WordEndPieces(first, word);
    SamePieces("bytes=" + Decimal(first) + "-" + word);
    NumberOfDecimal(first);
    WordIsNaN(word);
  }

  /** An end that is a word: server.js treats the `NaN` as "no end" and
      serves a chunk, main.ts passes the `NaN` on into a 206 reply. */
  lemma WordEndDiffers(first: nat, word: string, size: nat)
    requires '-' !in word && |word| > 0 && 'a' <= word[0] <= 'z'
    ensures ExpressRange.Negotiate(Some("bytes=" + Decimal(first) + "-" + word), size)
         == if first >= size then Unsatisfiable else Window(Val(first), ExpressRange.ChunkEnd(Val(first), size))
    ensures DenoRange.Negotiate(Some("bytes=" + Decimal(first) + "-" + word), size)
         == if first >= size then Unsatisfiable else Window(Val(first), NaN)
  {
    var header := "bytes=" + Decimal(first) + "-" + word;
    ExpressRange.NegotiateHeader(header, size);
    WordEndExpressParts(first, word);
    DenoRange.NegotiateHeader(header, size);
    WordEndPieces(first, word);
    WordIsNaN(word);
    ParseIntDecimal(first);
  }
}

=== FILE: torrent.dfy ===
/** What the gateways learn from the torrent engine, and the choice of the
    file to stream: the first file whose name ends in a video extension, else
    the first file. Both gateways use the same rule. */
module Torrent {
  import opened Wrappers
  import opened JsString

  /** A file of a resolved torrent: its path name and size in bytes. */
  datatype TorrentFile = TorrentFile(name: string, length: nat)

  /** How waiting for the torrent ended: `ready` with its file list, or a
      rejection (an engine `error` or the timeout) with its message. */
  datatype Resolution = Ready(files: seq<TorrentFile>) | Failed(message: string)

  /** `/\.(mp4|mkv|webm|avi)$/i.test(name)` */
  predicate IsVideoName(name: string)
  {
    || EndsWithIgnoreCase(name, ".mp4")
    || EndsWithIgnoreCase(name, ".mkv")
    || EndsWithIgnoreCase(name, ".webm")
    || EndsWithIgnoreCase(name, ".avi")
  }

  /** The index that `files.find(...)` stops at, if any. */
  function FirstVideo(files: seq<TorrentFile>): (r: Option<nat>)
    ensures r.Some? ==> r.value < |files| && IsVideoName(files[r.value].name)
    ensures r.Some? ==> forall j :: 0 <= j < r.value ==> !IsVideoName(files[j].name)
    ensures r.None? ==> forall j :: 0 <= j < |files| ==> !IsVideoName(files[j].name)
  {
    if |files| == 0 then None
    else if IsVideoName(files[0].name) then Some(0)
    else
      match FirstVideo(files[1..])
      case None => None
      case Some(k) => Some(k + 1)
  }

  /** `files.find(f => /\.(mp4|mkv|webm|avi)$/i.test(f.name)) || files[0]`,
      with `undefined` as None. */
  function PickVideo(files: seq<TorrentFile>): (r: Option<TorrentFile>)
    ensures r.None? <==> |files| == 0
    ensures forall i :: 0 <= i < |files| && IsVideoName(files[i].name) ==>
              exists k :: 0 <= k <= i && r == Some(files[k]) && IsVideoName(files[k].name)
                          && forall j :: 0 <= j < k ==> !IsVideoName(files[j].name)
    ensures |files| > 0 && (forall i :: 0 <= i < |files| ==> !IsVideoName(files[i].name)) ==>
              r == Some(files[0])
  {
    match FirstVideo(files)
    case Some(k) => Some(files[k])
    case None => if |files| == 0 then None else Some(files[0])
  }

  /** The extension test ignores case: upper-casing a name does not change it. */
  lemma VideoNameIgnoresCase(name: string)
    ensures IsVideoName(name) <==> IsVideoName(ToUpper(name))
  {
    EndsWithIgnoreCaseUpper(name, ".mp4");
    EndsWithIgnoreCaseUpper(name, ".mkv");
    EndsWithIgnoreCaseUpper(name, ".webm");
    EndsWithIgnoreCaseUpper(name, ".avi");
  }
}

=== FILE: torrent_cache.dfy ===
/** main.ts `getTorrent`: a cache keyed by the raw magnet string whose
    entries expire after `CACHE_TTL` milliseconds, consulted before the
    blocklist, and written only when the torrent resolves. */
module TorrentCache {
  import opened Wrappers
  import opened Torrent
  import opened Magnet

  /** `CACHE_TTL = 300_000` milliseconds. */
  const CACHE_TTL: int := 300000

  /** The message main.ts rejects with when no metadata arrives in time. */
  const TIMEOUT_MESSAGE: string := "Timeout: No se " + "encontraron " + "peers en " + "8 segundos"

  /** A cached resolution: the picked file (None for `undefined`) and the
      `Date.now()` at which it was stored. The torrent handle is not modelled. */
  datatype Entry = Entry(file: Option<TorrentFile>, timestamp: int)

  type Cache = map<string, Entry>

  /** `Date.now() - cached.timestamp < CACHE_TTL` */
  predicate Fresh(e: Entry, now: int)
  {
    now - e.timestamp < CACHE_TTL
  }

  /** The lookup's outcome (the file, or the thrown message) and the cache after it. */
  datatype Lookup = Lookup(result: Result<Option<TorrentFile>>, cache: Cache)

  /** `getTorrent(magnet)` at clock `now`, where `resolution` is how waiting
      for the torrent would end and `readyAt` the clock when it does. */
  function GetTorrent(cache: Cache, magnet: string, now: int, resolution: Resolution, readyAt: int): (r: Lookup)
    ensures magnet in cache && Fresh(cache[magnet], now) ==> r == Lookup(Ok(cache[magnet].file), cache)
    ensures !(magnet in cache && Fresh(cache[magnet], now)) ==>
              && (magnet in r.cache <==> r.result.Ok?)
              && (r.result.Ok? ==> r.cache[magnet] == Entry(r.result.value, readyAt))
              && (IsBlocked(magnet) ==> r.result == Err(BLOCKED_MESSAGE))
              && (!IsBlocked(magnet) && resolution.Failed? ==> r.result == Err(resolution.message))
              && (!IsBlocked(magnet) && resolution.Ready? ==> r.result == Ok(PickVideo(resolution.files)))
    ensures forall k :: k != magnet ==> (k in r.cache <==> k in cache)
    ensures forall k :: k != magnet && k in cache ==> r.cache[k] == cache[k]
  {
    if magnet in cache && Fresh(cache[magnet], now) then Lookup(Ok(cache[magnet].file), cache)
    else
      var pruned := cache - {magnet};
      if IsBlocked(magnet) then Lookup(Err(BLOCKED_MESSAGE), pruned)
      else
        match resolution
        case Failed(message) => Lookup(Err(message), pruned)
        case Ready(files) =>
          var file := PickVideo(files);
          Lookup(Ok(file), pruned[magnet := Entry(file, readyAt)])
  }

  /** A fresh entry is returned even for a blocked magnet: the cache is
      consulted before the blocklist. */
  lemma CachedMagnetSkipsBlocklist(cache: Cache, magnet: string, now: int, resolution: Resolution, readyAt: int)
    requires magnet in cache && Fresh(cache[magnet], now) && IsBlocked(magnet)
    ensures GetTorrent(cache, magnet, now, resolution, readyAt).result.Ok?
  {
  }

  /** Blocked and failed lookups leave no entry for the magnet. */
  lemma FailuresNotCached(cache: Cache, magnet: string, now: int, resolution: Resolution, readyAt: int)
    requires GetTorrent(cache, magnet, now, resolution, readyAt).result.Err?
    ensures magnet !in GetTorrent(cache, magnet, now, resolution, readyAt).cache
  {
  }

  /** Once a lookup has resolved at `readyAt`, a later lookup before the TTL
      has passed returns the same file without resolving again (whatever the
      engine would say) and without refreshing the entry. */
  lemma ResolvedThenHit(cache: Cache, magnet: string, now: int, resolution: Resolution, readyAt: int,
                        later: int, resolution': Resolution, readyAt': int)
    requires !(magnet in cache && Fresh(cache[magnet], now))
    requires GetTorrent(cache, magnet, now, resolution, readyAt).result.Ok?
    requires later - readyAt < CACHE_TTL
    ensures var first := GetTorrent(cache, magnet, now, resolution, readyAt);
            GetTorrent(first.cache, magnet, later, resolution', readyAt') == first
  {
  }

  /** An entry expires exactly when `CACHE_TTL` has elapsed: from then on the
      lookup resolves again, and a failed resolution drops the stale entry. */
  lemma ExpiredEntryResolvedAgain(cache: Cache, magnet: string, now: int, message: string, readyAt: int)
    requires magnet in cache && now - cache[magnet].timestamp >= CACHE_TTL
    requires !IsBlocked(magnet)
    ensures GetTorrent(cache, magnet, now, Failed(message), readyAt) == Lookup(Err(message), cache - {magnet})
  {
  }
}

=== FILE: trackers.dfy ===
/** The announce-list merge of server.js `enhanceMagnet`: the fixed tracker
    list followed by the magnet's own trackers, de-duplicated the way a
    JavaScript `Set` built from the concatenation orders its elements. */
module Trackers {
  import opened Wrappers

  /** An announce URL. */
  type Url = string

  /** The fixed trackers, in the order server.js lists them. */
  const TRACKERS: seq<Url> := [
    "wss://tracker.openwebtorrent.com",
    "udp://tracker.opentrackr.org:1337/announce",
    "udp://tracker.leechers-paradise.org:6969/announce",
    "udp://tracker.coppersurfer.tk:6969/announce",
    "udp://explodie.org:6969/announce",
    "udp://tracker.internetwarriors.net:1337/announce",
    "udp://tracker.pirateparty.gr:6969/announce",
    "udp://tracker.tiny-vps.com:6969/announce",
    "udp://tracker.torrent.eu.org:451/announce"
  ]

  ghost predicate NoDuplicates(s: seq<Url>)
  {
    forall i, j :: 0 <= i < j < |s| ==> s[i] != s[j]
  }

  /** Adding the elements of `s`, in order, to a `Set` whose insertion order
      is `acc`: an element already present is skipped. */
  function SetInsertAll(acc: seq<Url>, s: seq<Url>): (r: seq<Url>)
    ensures NoDuplicates(acc) ==> NoDuplicates(r)
    ensures |acc| <= |r| && r[..|acc|] == acc
    ensures forall x: Url :: x in r <==> x in acc || x in s
    decreases |s|
  {
    if |s| == 0 then acc
    else if s[0] in acc then SetInsertAll(acc, s[1..])
    else
      var acc' := acc + [s[0]];
      var r := SetInsertAll(acc', s[1..]);
      assert r[..|acc|] == r[..|acc'|][..|acc|];
      r
  }

  /** `[...new Set(s)]` */
  function Dedup(s: seq<Url>): seq<Url>
  {
    SetInsertAll([], s)
  }

  /** The elements of `s` that do not occur in `excluded`, in order. */
  function Outside(s: seq<Url>, excluded: seq<Url>): (r: seq<Url>)
    ensures forall x: Url :: x in r <==> x in s && x !in excluded
  {
    if |s| == 0 then []
    else if s[0] in excluded then Outside(s[1..], excluded)
    else [s[0]] + Outside(s[1..], excluded)
  }

  /** `parsed.tr = [...new Set([...TRACKERS, ...(parsed.tr || [])])]`; an
      absent `tr` is None. */
  function EnhanceTrackers(tr: Option<seq<Url>>): (r: seq<Url>)
    ensures NoDuplicates(r)
    ensures |TRACKERS| <= |r| && r[..|TRACKERS|] == TRACKERS
    ensures forall t: Url :: t in r <==> t in TRACKERS || (tr.Some? && t in tr.value)
  {
    var own := if tr.Some? then tr.value else [];
    SetInsertAllConcat([], TRACKERS, own);
    TrackersPreserved();
    Dedup(TRACKERS + own)
  }

  lemma TrackersDistinct()
    ensures NoDuplicates(TRACKERS)
  {
  }

  /** The fixed list is its own de-duplication. */
  lemma TrackersPreserved()
    ensures Dedup(TRACKERS) == TRACKERS
  {
    TrackersDistinct();
    SetInsertAllDistinct([], TRACKERS);
  }

  /** Inserting a concatenation is inserting one part after the other. */
  lemma {:induction false} SetInsertAllConcat(acc: seq<Url>, a: seq<Url>, b: seq<Url>)
    ensures SetInsertAll(acc, a + b) == SetInsertAll(SetInsertAll(acc, a), b)
    decreases |a|
  {
    if |a| == 0 {
      assert a + b == b;
    } else {
      assert (a + b)[0] == a[0];
      assert (a + b)[1..] == a[1..] + b;
      if a[0] in acc {
        SetInsertAllConcat(acc, a[1..], b);
      } else {
        SetInsertAllConcat(acc + [a[0]], a[1..], b);
      }
    }
  }

  /** Inserting fresh, distinct elements appends them unchanged. */
  lemma {:induction false} SetInsertAllDistinct(acc: seq<Url>, s: seq<Url>)
    requires NoDuplicates(acc + s)
    ensures SetInsertAll(acc, s) == acc + s
    decreases |s|
  {
    if |s| > 0 {
      var whole := acc + s;
      assert whole[|acc|] == s[0];
      assert s[0] !in acc by {
        forall i | 0 <= i < |acc| ensures acc[i] != s[0] {
          assert whole[i] == acc[i];
        }
      }
      assert acc + [s[0]] + s[1..] == whole;
      SetInsertAllDistinct(acc + [s[0]], s[1..]);
    }
  }

  /** What a `Set` that already holds `acc` followed by `added` gains from `s`
      is what `added` alone would gain from the part of `s` outside `acc`. */
  lemma {:induction false} SetInsertAllOutside(acc: seq<Url>, added: seq<Url>, s: seq<Url>)
    requires forall x: Url :: x in added ==> x !in acc
    ensures SetInsertAll(acc + added, s) == acc + SetInsertAll(added, Outside(s, acc))
    decreases |s|
  {
    if |s| > 0 {
      var x := s[0];
      if x in acc {
        SetInsertAllOutside(acc, added, s[1..]);
      } else if x in added {
        SetInsertAllOutside(acc, added, s[1..]);
        assert Outside(s, acc) == [x] + Outside(s[1..], acc);
      } else {
        assert acc + added + [x] == acc + (added + [x]);
        SetInsertAllOutside(acc, added + [x], s[1..]);
        assert Outside(s, acc) == [x] + Outside(s[1..], acc);
        assert (Outside(s, acc))[1..] == Outside(s[1..], acc);
      }
    }
  }

  /** The merged list is exactly the fixed trackers followed by the magnet's
      other trackers, each once, in order of first appearance. */
  lemma EnhanceTrackersExact(tr: seq<Url>)
    ensures EnhanceTrackers(Some(tr)) == TRACKERS + Dedup(Outside(tr, TRACKERS))
  {
    SetInsertAllConcat([], TRACKERS, tr);
    TrackersPreserved();
    SetInsertAllOutside(TRACKERS, [], tr);
    assert TRACKERS + [] == TRACKERS;
  }

  /** A magnet without trackers receives exactly the fixed list. */
  lemma EnhanceWithoutTrackers()
    ensures EnhanceTrackers(None) == TRACKERS
  {
    assert TRACKERS + [] == TRACKERS;
    TrackersPreserved();
  }

  lemma {:induction false} OutsideConcat(a: seq<Url>, b: seq<Url>, excluded: seq<Url>)
    ensures Outside(a + b, excluded) == Outside(a, excluded) + Outside(b, excluded)
    decreases |a|
  {
    if |a| == 0 {
      assert a + b == b;
    } else {
      assert (a + b)[1..] == a[1..] + b;
      OutsideConcat(a[1..], b, excluded);
    }
  }

  lemma {:induction false} OutsideAll(s: seq<Url>, excluded: seq<Url>)
    requires forall x: Url :: x in s ==> x !in excluded
    ensures Outside(s, excluded) == s
    decreases |s|
  {
    if |s| > 0 {
      OutsideAll(s[1..], excluded);
      assert [s[0]] + s[1..] == s;
    }
  }

  lemma {:induction false} OutsideNone(s: seq<Url>, excluded: seq<Url>)
    requires forall x: Url :: x in s ==> x in excluded
    ensures Outside(s, excluded) == []
    decreases |s|
  {
    if |s| > 0 {
      OutsideNone(s[1..], excluded);
    }
  }

  /** De-duplicating after a list of distinct entries, then again, adds nothing. */
  lemma MergeTwice(base: seq<Url>, own: seq<Url>)
    requires NoDuplicates(base)
    ensures var once := base + Dedup(Outside(own, base));
            base + Dedup(Outside(once, base)) == once
  {
    var rest := Dedup(Outside(own, base));
    OutsideConcat(base, rest, base);
    OutsideNone(base, base);
    OutsideAll(rest, base);
    assert [] + rest == rest;
    SetInsertAllDistinct([], rest);
  }

  /** Merging the trackers of an already merged list changes nothing. */
  lemma EnhanceTrackersIdempotent(tr: Option<seq<Url>>)
    ensures EnhanceTrackers(Some(EnhanceTrackers(tr))) == EnhanceTrackers(tr)
  {
    var own := if tr.Some? then tr.value else [];
    assert EnhanceTrackers(tr) == EnhanceTrackers(Some(own));
    EnhanceTrackersExact(own);
    EnhanceTrackersExact(EnhanceTrackers(tr));
    TrackersDistinct();
    MergeTwice(TRACKERS, own);
  }
}

=== FILE: wrappers.dfy ===
/** Option and Result shared by the gateway model. */
module Wrappers {

  /** A JavaScript value that may be `undefined`/`null` (None) or present (Some). */
  datatype Option<+T> = None | Some(value: T)

  /** The outcome of a step that either yields a value or throws an `Error`
      whose `message` is carried by `Err`. */
  datatype Result<+T> = Ok(value: T) | Err(message: string)
}
